=== FILE: README.md ===
# Timesheet manager — verified model of its calculations and handlers

The application is a desktop timesheet manager. Operators log work entries:
date, task, start and end time, break, billable flag, hourly rate and amount.
Administrators review, edit and approve them. This project models the parts
of the administrator screen (`admin.js`) and the main process (`main.js`)
that compute or decide something, and proves what they promise:

- the single-entry billing calculator (`computeAmount`) and the save handler
  of the timesheet editor;
- the dashboard aggregates: hours per user, the billable/non-billable split,
  and the six-month trend;
- the calendar: month navigation, day keys, grouping rows by date, and the
  per-user filter;
- the main-process handlers: `auth:login`, `admin:editUser`,
  `admin:deleteUser`, `timesheet:add`, `timesheet:update`,
  `timesheet:delete`, `timesheet:approve` and `report:totals`.

The SQL tables are maps from id to record (`Schema.Db`). Each handler is a
pure transition of that database. `lastTimesheetId` and `lastCommentId`
stand for the AUTOINCREMENT counters. Money and hours are exact reals.
`Math.round(x * 100) / 100` is `Money.Round2`, `floor(100x + 1/2) / 100`.

The JavaScript coercions the code relies on are written out in `Js`:

- truthiness and `||`;
- `String.prototype.trim`, with the white-space and line-terminator set of
  ECMA-262;
- `Number(text)`, which reads plain digit strings and otherwise gives NaN;
- `parseInt(text)`, which reads the leading digit run, or gives NaN when
  there is none;
- the property key `obj[v]` uses.

Times of day are read two ways, in `Clock`:

- the dashboard splits on ":" and reads each part with `Number(…) || 0`;
- the calculator and the monthly report read each part with `parseInt`.

`Clock.WellFormedReadingsAgree` and `Clock.ReadingsDiffer` prove where the
two agree and where they do not.

SELECT order is unspecified, so `report:totals` takes the table in any
enumeration `order`. `Reports.TotalsIndependentOfOrder` proves the result
does not depend on it. `auth:login` may pick any row with the name; the
UNIQUE constraint makes that row the only one.

Some consequences of the code that are easy to miss:

- The trend counts a row with a NULL date under January 1970, because
  `new Date(null)` is the epoch (`Dashboard.RowMonth`).
- The dashboard reads an unreadable start time as 00:00, so the row counts
  from midnight to its end time (`Dashboard.BadStartCountsFromMidnight`).
- 09:00 to 17:00 with a 30-minute break at 500 per hour is priced at
  (480 − 30) / 60 × 500 = 3750.00 (`Billing.FullDayExample`).
- The editor does not reject an unreadable time; it saves the entry with
  no amount (Findings below).
- A row whose date text names an `Object.prototype` member, such as
  "constructor", makes the calendar's grouping throw (Findings below).

## Model

| member | source | states |
|---|---|---|
| Billing.PriceRange | admin.js:398-402 | an end not after the start is rejected, whatever the break or rate; a break that leaves no positive worked time is rejected; otherwise the amount is whole cents, within half a cent of worked/60 × rate, non-negative for a non-negative rate and exactly 0 (accepted) for a zero rate |
| Billing.ComputeAmountAsWritten | admin.js:394-404 | the calculator as written returns NaN exactly when either time has no readable hour and minute part |
| Billing.ClearedEndTimeIsNotRejected | admin.js:396-406 | start "09:00" with a cleared end time gives NaN, which is not `null`, so the handler does not stop |
| Billing.ComputeAmount | admin.js:394-404 | corrected calculator: unreadable times are rejected; readable times are priced by the range rules on their minutes |
| Billing.CorrectionOnlyAffectsUnreadableTimes | admin.js:394-404 | on readable times the corrected and as-written calculators reject the same inputs and give the same amounts |
| Billing.FullDayExample | admin.js:398-402 | 09:00 to 17:00 with a 30-minute break at 500 per hour is accepted at 3750.00 |
| Billing.SaveEditAsWritten | admin.js:387-408 | the save handler as written: nothing is sent when no entry is open or the calculator returns `null`; otherwise the payload keeps id, date, billable flag, company and status of the entry and takes the trimmed task, times, break and rate from the form, with the amount when there is one and NULL for NaN |
| Billing.SaveEdit | admin.js:387-408 | corrected save handler: nothing is sent when no entry is open or the corrected calculator rejects the times; otherwise the same payload as the handler as written, with the computed amount |
| Billing.ClearedEndTimeIsSent | admin.js:396-408 | with start "09:00" and a cleared end time, the handler as written sends the update with a NULL amount, while the corrected handler sends nothing |
| Billing.SaveCorrectionOnlyAffectsUnreadableTimes | admin.js:387-408 | when both times are readable, the two save handlers send the same payload |
| Handlers.SaveEditChangesOnlyEditedFields | admin.js:405-408 | saving with the corrected handler and applying the update changes only task, times, break, rate and amount of that row, and no other row |
| Clock.LenientMinutes | admin.js:124-127 | a missing or empty time reads as midnight |
| Clock.StrictMinutes | admin.js:396-398 | a time is readable exactly when it has two ":"-separated parts that both start with a digit |
| Clock.WellFormedReadingsAgree | main.js:389-392 | on any well-formed "HH:MM" text the `parseInt` reading and the dashboard's `Number` reading both give hours × 60 + minutes |
| Clock.ReadingsDiffer | admin.js:124-127 | on "9:30am" the parseInt reading gives 570 minutes and the Number reading 540 |
| Js.Or | main.js:208 | the `or` default is the first value when it is truthy and the second otherwise |
| Js.Trim | admin.js:389 | the result has no white space at either end and is the input with white-space margins removed |
| Js.TrimEmpty | main.js:330 | a note trims to "" exactly when it is all white space |
| Js.TrimMargins | admin.js:389 | text without white space at its ends, padded with white space on either side, trims back to exactly that text |
| Js.TrimIdempotent | admin.js:389 | trimming twice is trimming once |
| Js.ToNumber | admin.js:124-125 | a part reads as a number exactly when it is all digits, and "" reads as 0 |
| Js.ParseInt | admin.js:396-397 | a part is NaN exactly when it is empty or does not start with a digit |
| Js.ParseIntExtendsToNumber | admin.js:396-397 | on non-empty digit strings parseInt and Number agree |
| Money.Round2 | admin.js:402 | the result is whole cents, within half a cent of the input, and non-negative for non-negative input |
| Money.Round2Cents | admin.js:135 | rounding an amount already in cents leaves it unchanged |
| Money.Round2Monotone | admin.js:135 | rounding preserves order |
| Dashboard.RowMinutes | admin.js:124-128 | a row's worked minutes are end − start − break when positive and 0 otherwise |
| Dashboard.MissingTimesContributeNothing | admin.js:123-127 | a row with both times missing reads as 00:00 to 00:00 and, with no negative break, counts 0 minutes |
| Dashboard.BadStartCountsFromMidnight | admin.js:124-128 | an unreadable start "bad" with end "17:00" and no break counts 1020 minutes |
| Dashboard.HoursByUser | admin.js:121-133 | corrected tally: a key for exactly the users met in the rows (NULL names as "null"), each holding the sum of that user's clamped hours |
| Dashboard.Accumulate | admin.js:130-131 | one step adds the row's hours to its user's slot, started at 0, and leaves other users alone |
| Dashboard.RoundedHoursByUser | admin.js:134-135 | corrected chart, built on the corrected tally: each user met in the rows, with that user's hours rounded to cents |
| Dashboard.PerUserTotalsAddUp | admin.js:121-135 | before rounding, the per-user totals over the distinct users add up to the hours of all rows |
| Dashboard.TallyAsWritten | admin.js:121-133 | on a plain object, a user named after an inherited method ends up with text, not hours, and a "__proto__" user is never stored |
| Dashboard.Bump | admin.js:130-131 | one step on the plain object: a seen key gains hours, a new key starts at the row's hours unless an inherited method answers for it |
| Dashboard.InheritedNamesBreakTally | admin.js:130-135 | a user "constructor" gets NaN and a user "__proto__" is missing, while the intended map gives each the row's hours |
| Dashboard.TallyAgreesOffPrototype | admin.js:121-135 | when no user name clashes with `Object.prototype`, the object as written holds exactly the intended per-user hours |
| Dashboard.BillableCount | admin.js:154 | the billable count never exceeds the number of rows |
| Dashboard.BillableSplit | admin.js:154-155 | rows minus billable rows is the number of rows not flagged 1, and every row is billable exactly when the count is the row count |
| Dashboard.RowMonth | admin.js:169-171 | a row files under a valid month: its ISO date's month, January 1970 for a NULL date, and nowhere for other text |
| Dashboard.HoursByMonth | admin.js:166-178 | every "YYYY-MM" key holds the hours of its month; a month without a key has no hours; every key is some month's key |
| Dashboard.Trend | admin.js:180-187 | exactly six points, oldest first, one month apart with year rollover, the last being the current month, each holding its month's hours rounded to cents (0 for a month without rows) |
| Dates.AddMonths | admin.js:183 | the month stays in 0..11 and the month index moves by exactly the offset |
| Dates.ParseIsoDate | admin.js:169-170 | a parsed date is a valid calendar date from well-formed "YYYY-MM-DD" text |
| Dates.MonthKeyInjective | admin.js:171 | different months have different "YYYY-MM" keys |
| Dates.DateKey | admin.js:441 | the "YYYY-MM-DD" key of a day cell: the year, then the month number and the day padded to two digits |
| Dates.MonthKey | admin.js:171 | the "YYYY-MM" key of a trend month: the year, then the month number padded to two digits |
| Dates.DateKeyParses | admin.js:441 | a day key with a four-digit year parses back to that day |
| Dates.ParsedDateIsKey | admin.js:441 | a well-formed date string with a four-digit year is the key of the day it names |
| Dates.IsoOrderIsChronological | main.js:379-384 | comparing well-formed date strings as text is comparing their dates in time |
| Text.SplitJoin | admin.js:124 | splitting the ":"-joined parts (none containing ":") gives back those parts |
| Text.ShowNatRoundTrip | admin.js:441 | reading the digits `String(n)` prints gives back n |
| Calendar.ChangeCalMonth | admin.js:421-426 | the month plus delta, with a month below 0 wrapped to December of the year before and one above 11 to January of the year after |
| Calendar.ChangeCalMonthSteps | admin.js:421-424 | for ±1 the month stays in 0..11, the step is exactly one calendar month, and the year changes exactly on wrap-around |
| Calendar.NextThenPrevious | admin.js:418-424 | next followed by previous returns to the same month |
| Calendar.LastDay | admin.js:435 | a month has between 28 and 31 day cells |
| Calendar.EntriesOn | admin.js:432 | holds every row filed under the key and only such rows; for a real date key each has exactly that date |
| Calendar.GroupByDate | admin.js:431-432 | corrected grouping: a key for exactly the dates met in the rows, each holding that date's rows in order |
| Calendar.PushAsWritten | admin.js:432 | one step of pushing a row onto `map[k]`, or onto a new list when the key is unset, on a plain object: a held key gets the row appended, a new ordinary key starts with the row, and a new key naming an `Object.prototype` member throws |
| Calendar.GroupAsWritten | admin.js:431-432 | the grouping as written throws exactly when some row's date text names an `Object.prototype` member, and otherwise equals the corrected grouping |
| Calendar.ConstructorDateBreaksCalendar | admin.js:429-475 | one row dated "constructor" makes the grouping throw before the grid is cleared, so the calendar is not redrawn, while the corrected grouping files it under that key |
| Calendar.FilteredRedrawAsWritten | admin.js:457-461 | the filtered redraw's grouping would throw exactly when one of the chosen user's rows has a date text naming an `Object.prototype` member |
| Calendar.FilteredRedrawNeverThrows | admin.js:429-460 | the filter's handler is installed only after the whole table was grouped without throwing, so the filtered redraw never throws and groups as intended |
| Calendar.CellEntriesAreEntriesOn | admin.js:443-444 | a day cell shows the rows grouped under its key, or none |
| Calendar.MonthCells | admin.js:440-447 | with the corrected grouping, one cell per day of the month, keyed "YYYY-MM-DD" in order, each with that day's rows |
| Calendar.CellsAreTheMonthsDays | admin.js:440-447 | with a four-digit year, cell i's key reads back as day i + 1 of the month, and the cell's entries are exactly the rows dated on that day |
| Calendar.CellShowsItsDay | admin.js:431-432 | under any key but "null", the rows filed are exactly the rows whose date is that key |
| Calendar.RowsOfUser | admin.js:459 | holds every row whose user name equals the selected one and only such rows |
| Calendar.FilterCommutesWithDay | admin.js:459-460 | filtering by user and then grouping by day is grouping by day and then filtering |
| Calendar.FilteredCells | admin.js:459-466 | with the corrected grouping, the filtered calendar shows, on each day, that user's rows of that day |
| Calendar.UserOptions | admin.js:453 | the filter lists each user name met in the rows exactly once, and no other, in order of first appearance |
| Seqs.DistinctFirstOccurrenceOrder | admin.js:453 | a `Set` built from a sequence lists an element before another exactly in the order of their first occurrences |
| Handlers.Decide | main.js:148-155 | an inactive non-admin is refused before the password is checked; a wrong password is refused; otherwise login succeeds with the record minus the password |
| Handlers.Login | main.js:142-156 | "User not found" exactly when no user has the name; otherwise the decision for a user with that name, the only one when names are unique |
| Handlers.EditUser | main.js:204-214 | a name taken by another user fails and changes nothing; otherwise the user gets the name, role, company (NULL if falsy) and active 1 or 0 by truthiness, keeps the password hash, and no other user or table changes; unique names stay unique |
| Handlers.DeleteUser | main.js:216-224 | the user and exactly the timesheets with that user id are removed; comments, companies and other rows stay; the database stays well formed |
| Handlers.StatusOrPending | main.js:258 | an empty or missing status becomes "pending"; a non-empty one is kept |
| Handlers.AddTimesheet | main.js:241-265 | the entry is stored under the next id with its status defaulted; no existing row changes; the comment counter and the other tables stay the same; the database stays well formed |
| Handlers.UpdateTimesheet | main.js:288-313 | an existing row takes every column from the entry except its user id; an unknown id leaves the database exactly as it was; no other row, table or counter changes |
| Handlers.DeleteTimesheet | main.js:315-323 | the timesheet and exactly its comments are removed; nothing else changes |
| Handlers.ApprovalStatus | main.js:327 | "approve" gives "approved" and every other action "rejected" |
| Handlers.SetStatus | main.js:328 | only the status of the named timesheet changes, and an unknown id changes nothing |
| Handlers.HasNote | main.js:330 | `note && note.trim()`: the note is present and has text besides white space |
| Handlers.Approve | main.js:325-343 | the status is set from the action; a comment with the trimmed note, role "admin" and the next id is added exactly when the note has non-white-space text; users and companies are untouched |
| Handlers.ApprovePreservesValid | main.js:330-336 | approval keeps the database well formed |
| Reports.ReportMinutes | main.js:386-397 | a row with a missing or unreadable time adds nothing; otherwise it adds end − start − break when positive and nothing otherwise |
| Reports.ReportAgreesWithDashboard | main.js:389-396 | on well-formed "HH:MM" times the report and the dashboard count the same minutes |
| Reports.InMonth | main.js:380-383 | `date >= mISO` compared as text; a NULL date is never selected |
| Reports.SelectsFromFirstOfMonth | main.js:379-384 | with the first of a month as the bound, a well-dated row is selected exactly when it falls in that month or later |
| Reports.MonthMinutes | main.js:380-397 | a row selected by `date >= mISO` contributes its report minutes; every other id contributes 0 |
| Reports.Billed | main.js:402-403 | a row contributes its stored amount, and NULL contributes nothing |
| Reports.HoursToCents | main.js:400 | worked hours are whole cents within half a cent of minutes / 60 |
| Reports.BilledTotal | main.js:402-403 | the billed amount is the sum of the stored amounts with NULL as 0, 0 for an empty table, and non-negative when every stored amount is |
| Reports.ReportTotals | main.js:372-411 | the counts are the table sizes; the month's hours are non-negative cents within half a cent of the selected rows' minutes / 60; the billed amount is the sum of the stored amounts with NULL as 0 (0 for an empty table), non-negative when every stored amount is |
| Reports.TotalsIndependentOfOrder | main.js:381-403 | the totals do not depend on the order the rows are read in |
| Reports.BilledAfterInsert | main.js:402-403 | a new row adds its amount, or nothing for NULL, to the billed total |
| Reports.AddTimesheetTotals | main.js:241-265 | after adding a timesheet the report shows one more entry and its amount added to the billed total, with the user and company counts unchanged |

## Left out

- The DOM, modals, chart objects, labels and `requestAnimationFrame`, along with `localStorage` and `sessionStorage`. They are presentation, with nothing to compute.
- preload.js, a bridge with no logic of its own.
- sql.js, the SQL text, persistence (`saveDB`, `loadDB`) and migrations. The tables are maps.
- bcrypt. The password comparison is the parameter `matches` of `Handlers.Login`.
- The clock and the time zone. "Today" is a (year, month) parameter of `Dashboard.Trend`, and the `mISO` month-start string is a parameter of `Reports.ReportTotals`. Time-zone shifts in `toISOString` and in `getMonth` of a parsed date are not modelled.
- `Dashboard.RowMonth`: reads only date-only "YYYY-MM-DD" text. Other formats that the JavaScript engine's date parser accepts, and day overflow, are treated as invalid.
- Text comparison of dates: `Text.LexLe` compares code points. SQLite's default collation compares UTF-8 bytes, and UTF-8 byte order is code-point order for all valid text, so the two agree.
- IEEE floating point. Rounding errors are not modelled. `Money.Round2` is `Math.round` on every real, ties included (−2.5 rounds to −2), except that it does not distinguish −0 from +0.
- `Js.ToNumber`, `Js.ParseInt`: leading/trailing white space, signs, decimals, exponents and hexadecimal are not accepted. Dates and times in this application are digit strings.
- `Billing.EditForm`: the break and rate fields are already numbers. The break is whole minutes, here and in the `break_minutes` column (`Schema`): a fractional break such as 15.5, which `Number` reads and the INTEGER column keeps as REAL, is not modelled, and neither is a non-numeric break field (NaN).
- The billing calculator's `try/catch`: `split` on a string cannot throw there, so the catch branch never returns.
- The chart order of users (`Object.keys`, integer-like keys first): no order is claimed.
- The `topUser` KPI: the code never computes it.
- `user:changePassword` (its "User not found" and "Old password incorrect" answers), `admin:createUser` (its `company_id || null` default), `admin:resetPassword`, `admin:getUsers`, the company handlers and the comment handlers. They are outside the modelled core: billing, the dashboard, the calendar, login, user editing, the timesheet handlers and the report.
- Handlers' error paths other than the UNIQUE constraint on user names. SQL failures do not arise in the map model.

## Findings

| source | as written | input that shows it | evidently intended | confidence | as-written member | corrected member |
|---|---|---|---|---|---|---|
| admin.js:394-408 | a time without a readable hour and minute part gives NaN from `parseInt`; NaN fails both `<=` tests and `Math.round` returns NaN, so the handler's `=== null` test passes it and the update is sent with a NaN amount, which SQLite stores as NULL | start "09:00", end "" (cleared input), break 0, rate 500 | reject the entry with "Invalid time range" | not executed; follows from ECMA-262 NaN semantics | Billing.ComputeAmountAsWritten, Billing.ClearedEndTimeIsNotRejected, Billing.SaveEditAsWritten, Billing.ClearedEndTimeIsSent | Billing.ComputeAmount, Billing.CorrectionOnlyAffectsUnreadableTimes, Billing.SaveEdit, Billing.SaveCorrectionOnlyAffectsUnreadableTimes |
| admin.js:121-135 | hours are tallied on a plain object `{}`. A user name such as "constructor" finds an inherited function, which is truthy, so the slot is not reset to 0 and `+=` concatenates text that rounds to NaN. A "__proto__" name is never stored. | one row by user "constructor" (chart shows NaN); one row by user "__proto__" (user missing) | every user appears with the sum of their hours | not executed; follows from ECMA-262 property lookup on ordinary objects | Dashboard.TallyAsWritten, Dashboard.InheritedNamesBreakTally | Dashboard.HoursByUser, Dashboard.RoundedHoursByUser, Dashboard.TallyAgreesOffPrototype |
| admin.js:429-475 | the calendar groups rows by date text on a plain object `{}` by pushing each row onto `map[r.date]`, or onto a new list when that key is unset. The date column is free text, and a date such as "constructor" finds an inherited function, which has no `push`, so a TypeError is thrown. `buildCalendar` catches it before clearing the grid, so the calendar is not redrawn. The filtered redraw never throws, because its handler is installed only after the whole table was grouped. | one row dated "constructor" | every row filed under its date text, other days unaffected | not executed; follows from ECMA-262 property lookup on ordinary objects | Calendar.GroupAsWritten, Calendar.ConstructorDateBreaksCalendar | Calendar.GroupByDate, Calendar.MonthCells, Calendar.CellsAreTheMonthsDays |

=== FILE: billing.dfy ===
/** The single-entry billing calculator (`computeAmount`) of the admin
    timesheet editor, and the save handler that uses it. */
module Billing {
  import opened Wrappers
  import opened Schema
  import Clock
  import Money
  import Js
  import Text

  /** What `computeAmount` returns as written: `null`, a number, or NaN. */
  datatype Priced = Rejected | Amount(value: real) | NotANumber

  /** The arithmetic of `computeAmount` once both times are minutes since
      midnight: an inverted or empty range, or a break that leaves no
      positive worked time, is rejected (`None`); otherwise worked hours times
      the rate, rounded to cents. */
  function PriceRange(s: int, e: int, br: int, rate: real): (r: Option<real>)
    ensures e <= s ==> r.None?
    ensures e - s - br <= 0 ==> r.None?
    ensures e > s && e - s - br > 0 ==>
      && r.Some?
      && Money.IsCents(r.value)
      && -0.005 < r.value - (e - s - br) as real / 60.0 * rate <= 0.005
      && (rate >= 0.0 ==> r.value >= 0.0)
      && (rate == 0.0 ==> r.value == 0.0)
  {
    if e <= s then None
    else if e - s - br <= 0 then None
    else
      var exact := (e - s - br) as real / 60.0 * rate;
      assert rate == 0.0 ==> exact == 0.0;
      assert rate >= 0.0 ==> exact >= 0.0;
      Some(Money.Round2(exact))
  }

  /** `computeAmount` exactly as written. The times are read with `parseInt`,
      which does not throw on bad text but yields NaN; NaN then fails both
      comparisons and comes out of `Math.round` as NaN, so bad text is not
      rejected. */
  function ComputeAmountAsWritten(start: string, end: string, br: int, rate: real): (p: Priced)
    ensures p == NotANumber <==> Clock.StrictMinutes(start).None? || Clock.StrictMinutes(end).None?
  {
    match (Clock.StrictMinutes(start), Clock.StrictMinutes(end))
    case (Some(s), Some(e)) =>
      (match PriceRange(s, e, br, rate)
       case None => Rejected
       case Some(v) => Amount(v))
    case _ => NotANumber
  }

  /** An end time cleared in the editor is not rejected: the amount is NaN
      and the save handler goes on to send the update. */
  lemma ClearedEndTimeIsNotRejected()
    ensures ComputeAmountAsWritten("09:00", "", 0, 500.0) == NotANumber
  {
    Clock.NineAm();
    assert Text.Split("", ':') == [""];
  }

  /** `computeAmount` as intended: unreadable times are rejected like an
      invalid range; readable ones are priced by `PriceRange`. */
  function ComputeAmount(start: string, end: string, br: int, rate: real): (r: Option<real>)
    ensures Clock.StrictMinutes(start).None? || Clock.StrictMinutes(end).None? ==> r.None?
    ensures Clock.StrictMinutes(start).Some? && Clock.StrictMinutes(end).Some? ==>
              r == PriceRange(Clock.StrictMinutes(start).value, Clock.StrictMinutes(end).value, br, rate)
  {
    match (Clock.StrictMinutes(start), Clock.StrictMinutes(end))
    case (Some(s), Some(e)) => PriceRange(s, e, br, rate)
    case _ => None
  }

  /** Where the times can be read, the corrected calculator and the code as
      written give the same answer. */
  lemma CorrectionOnlyAffectsUnreadableTimes(start: string, end: string, br: int, rate: real)
    requires Clock.StrictMinutes(start).Some? && Clock.StrictMinutes(end).Some?
    ensures ComputeAmountAsWritten(start, end, br, rate) != NotANumber
    ensures ComputeAmount(start, end, br, rate).None? <==> ComputeAmountAsWritten(start, end, br, rate) == Rejected
    ensures ComputeAmount(start, end, br, rate).Some? ==>
              ComputeAmountAsWritten(start, end, br, rate) == Amount(ComputeAmount(start, end, br, rate).value)
  {
  }

  /** 09:00 to 17:00 with a 30 minute break at 500 per hour: 7.5 hours, 3750.00. */
  lemma FullDayExample()
    ensures ComputeAmount("09:00", "17:00", 30, 500.0) == Some(3750.0)
  {
    Clock.NineAm();
    Clock.FivePm();
    FullDayPrice();
  }

  lemma FullDayPrice()
    ensures PriceRange(540, 1020, 30, 500.0) == Some(3750.0)
  {
    assert (1020 - 540 - 30) as real / 60.0 * 500.0 == 3750.0;
    Money.Round2Cents(3750.0);
  }

  /** The values of the edit dialog: task text, the two time inputs, and the
      break and rate fields already read with `Number(value || 0)`. */
  datatype EditForm = EditForm(task: string, start: string, end: string, breakMinutes: int, rate: real)

  /** The update payload the save handler builds: the entry's id, date,
      billable flag, company and status unchanged, and the task (trimmed),
      times, break, rate and amount from the form. */
  function EditPayload(row: Row, form: EditForm, amount: Option<real>): Entry
  {
    Entry(
      id := row.id,
      userId := None,
      date := row.sheet.date,
      task := Js.Trim(form.task),
      startTime := Some(form.start),
      endTime := Some(form.end),
      breakMinutes := Some(form.breakMinutes),
      billable := row.sheet.billable,
      ratePerHour := form.rate,
      billableAmount := amount,
      companyId := row.sheet.companyId,
      status := Some(row.sheet.status))
  }

  /** `p` keeps the edited row's identity and takes the edited fields from
      the form. */
  predicate KeepsRowTakesForm(row: Row, form: EditForm, p: Entry)
  {
    && p.id == row.id
    && p.date == row.sheet.date
    && p.billable == row.sheet.billable
    && p.companyId == row.sheet.companyId
    && p.status == Some(row.sheet.status)
    && p.task == Js.Trim(form.task)
    && p.startTime == Some(form.start) && p.endTime == Some(form.end)
    && p.breakMinutes == Some(form.breakMinutes)
    && p.ratePerHour == form.rate
  }

  /** The save handler of the edit dialog as written: it stops only when no
      entry is being edited or the calculator returns `null`. A NaN amount
      passes the `=== null` test and is sent; binding NaN stores NULL. */
  function SaveEditAsWritten(editing: Option<Row>, form: EditForm): (payload: Option<Entry>)
    ensures editing.None? ==> payload.None?
    ensures editing.Some? ==>
              (payload.Some? <==> ComputeAmountAsWritten(form.start, form.end, form.breakMinutes, form.rate) != Rejected)
    ensures payload.Some? ==>
      && KeepsRowTakesForm(editing.value, form, payload.value)
      && match ComputeAmountAsWritten(form.start, form.end, form.breakMinutes, form.rate)
         case Amount(v) => payload.value.billableAmount == Some(v)
         case _ => payload.value.billableAmount.None?
  {
    match editing
    case None => None
    case Some(row) =>
      match ComputeAmountAsWritten(form.start, form.end, form.breakMinutes, form.rate)
      case Rejected => None
      case Amount(v) => Some(EditPayload(row, form, Some(v)))
      case NotANumber => Some(EditPayload(row, form, None))
  }

  /** The save handler of the edit dialog as intended: nothing is sent when
      no entry is being edited or the corrected calculator rejects the
      amount; otherwise the payload keeps the entry's identity and takes the
      edited fields and the amount. */
  function SaveEdit(editing: Option<Row>, form: EditForm): (payload: Option<Entry>)
    ensures editing.None? ==> payload.None?
    ensures editing.Some? ==>
              (payload.Some? <==> ComputeAmount(form.start, form.end, form.breakMinutes, form.rate).Some?)
    ensures payload.Some? ==>
      && KeepsRowTakesForm(editing.value, form, payload.value)
      && payload.value.billableAmount == ComputeAmount(form.start, form.end, form.breakMinutes, form.rate)
  {
    match editing
    case None => None
    case Some(row) =>
      match ComputeAmount(form.start, form.end, form.breakMinutes, form.rate)
      case None => None
      case Some(amount) => Some(EditPayload(row, form, Some(amount)))
  }

  /** With an end time cleared, the handler as written sends the update with
      a NULL amount, while the corrected handler sends nothing. */
  lemma ClearedEndTimeIsSent(row: Row)
    ensures var form := EditForm("t", "09:00", "", 0, 500.0);
      && SaveEditAsWritten(Some(row), form).Some?
      && SaveEditAsWritten(Some(row), form).value.billableAmount.None?
      && SaveEdit(Some(row), form).None?
  {
    ClearedEndTimeIsNotRejected();
  }

  /** Where both times can be read, the two save handlers send the same
      payload. */
  lemma SaveCorrectionOnlyAffectsUnreadableTimes(editing: Option<Row>, form: EditForm)
    requires Clock.StrictMinutes(form.start).Some? && Clock.StrictMinutes(form.end).Some?
    ensures SaveEditAsWritten(editing, form) == SaveEdit(editing, form)
  {
    CorrectionOnlyAffectsUnreadableTimes(form.start, form.end, form.breakMinutes, form.rate);
  }
}

=== FILE: calendar.dfy ===
/** The admin calendar: month navigation, the day cells of a month with the
    rows logged on each day, and the per-user filter. */
module Calendar {
  import opened Wrappers
  import opened Schema
  import Seqs
  import Dates
  import Js
  import Text

  /** `changeCalMonth(delta)`: add `delta` to the month, then wrap a month
      below 0 to December of the previous year and one above 11 to January
      of the next. */
  function ChangeCalMonth(ym: Dates.YearMonth, delta: int): (r: Dates.YearMonth)
    ensures ym.month + delta < 0 ==> r == Dates.YearMonth(ym.year - 1, 11)
    ensures ym.month + delta > 11 ==> r == Dates.YearMonth(ym.year + 1, 0)
    ensures 0 <= ym.month + delta <= 11 ==> r == Dates.YearMonth(ym.year, ym.month + delta)
  {
    var m := ym.month + delta;
    if m < 0 then Dates.YearMonth(ym.year - 1, 11)
    else if m > 11 then Dates.YearMonth(ym.year + 1, 0)
    else Dates.YearMonth(ym.year, m)
  }

  /** The buttons step one month: the month stays in 0..11, the year changes
      exactly when the month wraps, and the step is one month on the
      calendar. */
  lemma ChangeCalMonthSteps(ym: Dates.YearMonth, delta: int)
    requires Dates.ValidMonth(ym) && (delta == 1 || delta == -1)
    ensures Dates.ValidMonth(ChangeCalMonth(ym, delta))
    ensures ChangeCalMonth(ym, delta) == Dates.AddMonths(ym, delta)
    ensures ChangeCalMonth(ym, delta).year == ym.year - 1 <==> delta == -1 && ym.month == 0
    ensures ChangeCalMonth(ym, delta).year == ym.year + 1 <==> delta == 1 && ym.month == 11
  {
    Dates.MonthIndexInjective(ChangeCalMonth(ym, delta), Dates.AddMonths(ym, delta));
  }

  /** Next then previous returns to the starting month. */
  lemma NextThenPrevious(ym: Dates.YearMonth)
    requires Dates.ValidMonth(ym)
    ensures ChangeCalMonth(ChangeCalMonth(ym, 1), -1) == ym
  {
    ChangeCalMonthSteps(ym, 1);
    ChangeCalMonthSteps(ChangeCalMonth(ym, 1), -1);
    Dates.MonthIndexInjective(ChangeCalMonth(ChangeCalMonth(ym, 1), -1), ym);
  }

  /** `new Date(year, month + 1, 0).getDate()`: the number of day cells. */
  function LastDay(year: int, month: int): (n: int)
    requires 0 <= month < 12
    ensures 28 <= n <= 31
  {
    Dates.DaysInMonth(Dates.ConstructorYear(year), month)
  }

  /** Key of a row's date in the grouping object (`map[r.date]`): the date
      text, or "null" for a NULL date. */
  function DateKeyOf(r: Row): string
  {
    Js.PropertyKey(r.sheet.date)
  }

  function DateKeys(rows: seq<Row>): (keys: seq<string>)
    ensures |keys| == |rows|
    ensures forall i :: 0 <= i < |rows| ==> keys[i] == DateKeyOf(rows[i])
  {
    if |rows| == 0 then [] else DateKeys(rows[..|rows| - 1]) + [DateKeyOf(rows[|rows| - 1])]
  }

  /** The rows filed under date key `key`, in order: the reference for a
      cell's entries. For any key other than "null" these are exactly the
      rows whose date string equals the key. */
  function EntriesOn(rows: seq<Row>, key: string): (e: seq<Row>)
    ensures |e| <= |rows|
    ensures forall i :: 0 <= i < |e| ==> e[i] in rows && DateKeyOf(e[i]) == key
    ensures key != "null" ==> forall i :: 0 <= i < |e| ==> e[i].sheet.date == Some(key)
    ensures forall i :: 0 <= i < |rows| && DateKeyOf(rows[i]) == key ==> rows[i] in e
  {
    if |rows| == 0 then []
    else
      var r := rows[|rows| - 1];
      EntriesOn(rows[..|rows| - 1], key) + (if DateKeyOf(r) == key then [r] else [])
  }

  lemma {:induction false} EntriesOnAbsent(rows: seq<Row>, key: string)
    requires key !in DateKeys(rows)
    ensures EntriesOn(rows, key) == []
    decreases |rows|
  {
    if |rows| > 0 {
      var init := rows[..|rows| - 1];
      assert DateKeys(rows) == DateKeys(init) + [DateKeyOf(rows[|rows| - 1])];
      EntriesOnAbsent(init, key);
    }
  }

  /** The grouping object `map` of `buildCalendar`: one key per date key the
      rows carry, listing that date's rows in order. */
  function GroupByDate(rows: seq<Row>): (g: map<string, seq<Row>>)
    ensures forall k :: k in g <==> k in DateKeys(rows)
    ensures forall k :: k in g ==> g[k] == EntriesOn(rows, k)
  {
    if |rows| == 0 then map[]
    else
      var init := rows[..|rows| - 1];
      var r := rows[|rows| - 1];
      var prev := GroupByDate(init);
      var k := DateKeyOf(r);
      assert DateKeys(rows) == DateKeys(init) + [k];
      assert k !in prev ==> EntriesOn(init, k) == [] by {
        if k !in prev { EntriesOnAbsent(init, k); }
      }
      prev[k := (if k in prev then prev[k] else []) + [r]]
  }

  /** No row's date text names an `Object.prototype` member. */
  predicate NoPrototypeDates(rows: seq<Row>)
  {
    forall i :: 0 <= i < |rows| ==> !Js.ClashesWithPrototype(DateKeyOf(rows[i]))
  }

  /** One step of `(map[k] = map[k] || []).push(r)` on a plain object, as
      written. A key the object already holds gets the row appended; a new
      key that names an `Object.prototype` member finds an inherited value
      with no `push`, so the call throws a TypeError (`None`). */
  function PushAsWritten(g: Option<map<string, seq<Row>>>, r: Row): (g': Option<map<string, seq<Row>>>)
    ensures g.None? ==> g'.None?
    ensures g.Some? && DateKeyOf(r) !in g.value && Js.ClashesWithPrototype(DateKeyOf(r)) ==> g'.None?
    ensures g.Some? && DateKeyOf(r) in g.value ==>
              g' == Some(g.value[DateKeyOf(r) := g.value[DateKeyOf(r)] + [r]])
    ensures g.Some? && DateKeyOf(r) !in g.value && !Js.ClashesWithPrototype(DateKeyOf(r)) ==>
              g' == Some(g.value[DateKeyOf(r) := [r]])
  {
    match g
    case None => None
    case Some(m) =>
      var k := DateKeyOf(r);
      if k !in m && Js.ClashesWithPrototype(k) then None
      else
        assert [] + [r] == [r];
        Some(m[k := (if k in m then m[k] else []) + [r]])
  }

  /** The grouping of `buildCalendar` (and of the filtered redraw) as
      written: it throws exactly when some row's date text names an
      `Object.prototype` member, and otherwise builds `GroupByDate`. */
  function GroupAsWritten(rows: seq<Row>): (g: Option<map<string, seq<Row>>>)
    ensures g.Some? <==> NoPrototypeDates(rows)
    ensures g.Some? ==> g.value == GroupByDate(rows)
  {
    if |rows| == 0 then Some(map[])
    else
      var init := rows[..|rows| - 1];
      var r := rows[|rows| - 1];
      assert rows == init + [r];
      var prev := GroupAsWritten(init);
      PushKeepsGrouping(init, r, prev);
      PushAsWritten(prev, r)
  }

  /** One as-written step keeps the grouping in step with `GroupByDate` and
      fails exactly when the new row's key clashes. */
  lemma PushKeepsGrouping(init: seq<Row>, r: Row, prev: Option<map<string, seq<Row>>>)
    requires prev.Some? <==> NoPrototypeDates(init)
    requires prev.Some? ==> prev.value == GroupByDate(init)
    ensures PushAsWritten(prev, r).Some? <==> NoPrototypeDates(init + [r])
    ensures PushAsWritten(prev, r).Some? ==> PushAsWritten(prev, r).value == GroupByDate(init + [r])
  {
    var rows := init + [r];
    var k := DateKeyOf(r);
    assert rows[..|rows| - 1] == init;
    assert NoPrototypeDates(rows) <==> NoPrototypeDates(init) && !Js.ClashesWithPrototype(k) by {
      assert forall i :: 0 <= i < |init| ==> rows[i] == init[i];
      assert rows[|rows| - 1] == r;
    }
    if prev.Some? && k in prev.value {
      GroupedKeyIsOwn(init, k);
    }
  }

  /** When no row clashes with the prototype, every key of the grouping is
      some row's date key and so clashes with nothing. */
  lemma GroupedKeyIsOwn(rows: seq<Row>, k: string)
    requires NoPrototypeDates(rows)
    requires k in GroupByDate(rows)
    ensures !Js.ClashesWithPrototype(k)
  {
    assert k in DateKeys(rows);
    var j :| 0 <= j < |DateKeys(rows)| && DateKeys(rows)[j] == k;
    assert DateKeyOf(rows[j]) == k;
  }

  /** One row dated "constructor" (the date column is free text) makes the
      grouping throw before the grid is cleared, so the calendar is not
      redrawn, while the intended grouping files the row under that key. */
  lemma ConstructorDateBreaksCalendar(r: Row)
    requires r.sheet.date == Some("constructor")
    ensures GroupAsWritten([r]).None?
    ensures GroupByDate([r]) == map["constructor" := [r]]
  {
    assert DateKeyOf([r][0]) == "constructor";
    assert [r][..0] == [];
    assert GroupByDate([r][..0]) == map[];
    assert [] + [r] == [r];
  }

  /** The rows a calendar cell for `key` shows: its group, or none. */
  function CellEntries(g: map<string, seq<Row>>, key: string): seq<Row>
  {
    if key in g then g[key] else []
  }

  /** A missing group and an empty reference agree. */
  lemma CellEntriesAreEntriesOn(rows: seq<Row>, key: string)
    ensures CellEntries(GroupByDate(rows), key) == EntriesOn(rows, key)
  {
    if key !in GroupByDate(rows) {
      EntriesOnAbsent(rows, key);
    }
  }

  /** One day cell: its date key and the rows shown when it is clicked. It is
      marked when that list is non-empty. */
  datatype DayCell = DayCell(key: string, entries: seq<Row>)

  /** The cells `buildCalendar(year, month)` lays out for `rows`, one per day
      of the month, each with the rows logged on that day. */
  function MonthCells(rows: seq<Row>, year: int, month: int): (cells: seq<DayCell>)
    requires 0 <= month < 12
    ensures |cells| == LastDay(year, month)
    ensures forall i :: 0 <= i < |cells| ==> cells[i].key == Dates.DateKey(year, month, i + 1)
    ensures forall i :: 0 <= i < |cells| ==> cells[i].entries == EntriesOn(rows, cells[i].key)
  {
    var g := GroupByDate(rows);
    var n := LastDay(year, month);
    var cells := seq(n, i requires 0 <= i < n =>
      var key := Dates.DateKey(year, month, i + 1);
      DayCell(key, CellEntries(g, key)));
    forall i | 0 <= i < |cells|
      ensures cells[i].entries == EntriesOn(rows, cells[i].key)
    {
      CellEntriesAreEntriesOn(rows, cells[i].key);
    }
    cells
  }

  /** Day keys are never the "null" key a NULL date is filed under, so a
      cell lists exactly the rows whose date string is its key. */
  lemma KeyIsNotNull(year: int, month: nat, day: nat)
    ensures Dates.DateKey(year, month, day) != "null"
  {
    var k := Dates.DateKey(year, month, day);
    var n := |Text.ShowInt(year)|;
    assert k[n] == '-';
    assert '-' !in "null";
  }

  /** With a four-digit year, the cells are the month's dates in order:
      cell i holds day i + 1, its key reads back as that date, and it shows
      exactly the rows dated on that day. */
  lemma CellsAreTheMonthsDays(rows: seq<Row>, year: int, month: int, i: nat)
    requires 1000 <= year <= 9999 && 0 <= month < 12
    requires i < |MonthCells(rows, year, month)|
    ensures Dates.ParseIsoDate(MonthCells(rows, year, month)[i].key) == Some(Dates.Date(year, month, i + 1))
    ensures forall r :: r in MonthCells(rows, year, month)[i].entries <==>
              r in rows && r.sheet.date == Some(MonthCells(rows, year, month)[i].key)
  {
    Dates.DateKeyParses(Dates.Date(year, month, i + 1));
    var cell := MonthCells(rows, year, month)[i];
    KeyIsNotNull(year, month, i + 1);
    CellShowsItsDay(rows, cell.key, cell.entries);
  }

  /** For a key other than "null", the rows filed under it are exactly the
      rows whose date is that key. */
  lemma CellShowsItsDay(rows: seq<Row>, key: string, entries: seq<Row>)
    requires key != "null" && entries == EntriesOn(rows, key)
    ensures forall r :: r in entries <==> r in rows && r.sheet.date == Some(key)
  {
    forall r | r in rows && r.sheet.date == Some(key)
      ensures r in entries
    {
      var j :| 0 <= j < |rows| && rows[j] == r;
      assert DateKeyOf(rows[j]) == key;
    }
  }

  /** The rows of user `u` (`r.username === u`). */
  function RowsOfUser(rows: seq<Row>, u: string): (f: seq<Row>)
    ensures |f| <= |rows|
    ensures forall i :: 0 <= i < |f| ==> f[i] in rows && f[i].username == Some(u)
    ensures forall i :: 0 <= i < |rows| && rows[i].username == Some(u) ==> rows[i] in f
  {
    if |rows| == 0 then []
    else
      var r := rows[|rows| - 1];
      RowsOfUser(rows[..|rows| - 1], u) + (if r.username == Some(u) then [r] else [])
  }

  /** Filtering by user then grouping by day is grouping by day then
      filtering: a cell of the filtered calendar shows exactly that user's
      rows from the unfiltered cell. */
  lemma {:induction false} FilterCommutesWithDay(rows: seq<Row>, u: string, day: string)
    ensures EntriesOn(RowsOfUser(rows, u), day) == RowsOfUser(EntriesOn(rows, day), u)
    decreases |rows|
  {
    if |rows| > 0 {
      var init := rows[..|rows| - 1];
      var r := rows[|rows| - 1];
      FilterCommutesWithDay(init, u, day);
      var fu := RowsOfUser(init, u);
      var ed := EntriesOn(init, day);
      if r.username == Some(u) {
        assert RowsOfUser(rows, u) == fu + [r];
        assert (fu + [r])[..|fu|] == fu;
        if r.sheet.date == Some(day) {
          assert (ed + [r])[..|ed|] == ed;
        } else {
          assert ed + [] == ed;
        }
      } else {
        assert RowsOfUser(rows, u) == fu + [];
        assert fu + [] == fu;
        if r.sheet.date == Some(day) {
          assert (ed + [r])[..|ed|] == ed;
        } else {
          assert ed + [] == ed;
        }
      }
    }
  }

  /** The filtered calendar's cells are the unfiltered cells restricted to `u`. */
  lemma FilteredCells(rows: seq<Row>, u: string, year: int, month: int, i: nat)
    requires 0 <= month < 12 && i < LastDay(year, month)
    ensures MonthCells(RowsOfUser(rows, u), year, month)[i].entries
            == RowsOfUser(MonthCells(rows, year, month)[i].entries, u)
  {
    FilterCommutesWithDay(rows, u, Dates.DateKey(year, month, i + 1));
  }

  /** `rows.map(r => r.username)`. */
  function Usernames(rows: seq<Row>): (names: seq<Option<string>>)
    ensures |names| == |rows|
    ensures forall i :: 0 <= i < |rows| ==> names[i] == rows[i].username
  {
    seq(|rows|, i requires 0 <= i < |rows| => rows[i].username)
  }

  /** The filtered redraw as written groups the user's rows on a fresh
      plain object: that grouping would throw exactly when one of the
      user's rows has a date text naming an `Object.prototype` member. */
  lemma FilteredRedrawAsWritten(rows: seq<Row>, u: string)
    ensures GroupAsWritten(RowsOfUser(rows, u)).Some? <==>
              forall i :: 0 <= i < |rows| && rows[i].username == Some(u) ==>
                !Js.ClashesWithPrototype(DateKeyOf(rows[i]))
  {
    var f := RowsOfUser(rows, u);
    if NoPrototypeDates(f) {
      forall i | 0 <= i < |rows| && rows[i].username == Some(u)
        ensures !Js.ClashesWithPrototype(DateKeyOf(rows[i]))
      {
        assert rows[i] in f;
        var j :| 0 <= j < |f| && f[j] == rows[i];
      }
    } else {
      var j :| 0 <= j < |f| && Js.ClashesWithPrototype(DateKeyOf(f[j]));
      assert f[j] in rows && f[j].username == Some(u);
      var i :| 0 <= i < |rows| && rows[i] == f[j];
    }
  }

  /** The filter's handler is installed only after the whole table was
      grouped without throwing, and the user's rows are some of those rows,
      so the filtered redraw never throws. */
  lemma FilteredRedrawNeverThrows(rows: seq<Row>, u: string)
    requires GroupAsWritten(rows).Some?
    ensures GroupAsWritten(RowsOfUser(rows, u)).Some?
    ensures GroupAsWritten(RowsOfUser(rows, u)).value == GroupByDate(RowsOfUser(rows, u))
  {
    FilteredRedrawAsWritten(rows, u);
  }

  /** The user filter's options: each user name the rows carry, once, in order
      of first appearance (`[...new Set(rows.map(r => r.username))]`). */
  function UserOptions(rows: seq<Row>): (opts: seq<Option<string>>)
    ensures Seqs.NoDuplicates(opts)
    ensures forall i :: 0 <= i < |rows| ==> rows[i].username in opts
    ensures forall i :: 0 <= i < |opts| ==> exists j :: 0 <= j < |rows| && rows[j].username == opts[i]
    ensures forall i, j :: 0 <= i < j < |opts| ==>
              && opts[i] in Usernames(rows) && opts[j] in Usernames(rows)
              && Seqs.FirstIndex(Usernames(rows), opts[i]) < Seqs.FirstIndex(Usernames(rows), opts[j])
  {
    var names := Usernames(rows);
    var opts := Seqs.Distinct(names);
    forall i, j | 0 <= i < j < |opts|
      ensures opts[i] in names && opts[j] in names
      ensures Seqs.FirstIndex(names, opts[i]) < Seqs.FirstIndex(names, opts[j])
    {
      Seqs.DistinctFirstOccurrenceOrder(names, i, j);
    }
    forall i | 0 <= i < |rows|
      ensures rows[i].username in opts
    {
      assert names[i] == rows[i].username;
    }
    forall i | 0 <= i < |opts|
      ensures exists j :: 0 <= j < |rows| && rows[j].username == opts[i]
    {
      assert opts[i] in names;
      var j :| 0 <= j < |names| && names[j] == opts[i];
      assert rows[j].username == opts[i];
    }
    opts
  }
}

=== FILE: clock.dfy ===
/** Reading "HH:MM" time-of-day text as minutes since midnight. The
    application does this two ways: the dashboard charts read each part with
    `Number` and fall back to 0, while the billing calculator and the monthly
    report read each part with `parseInt`. */
module Clock {
  import opened Wrappers
  import opened Text
  import Js

  /** `parts[i]` read with `Number(...) || 0`; a missing part is `undefined`
      and also reads as 0. */
  function PartOrZero(parts: seq<string>, i: nat): nat
  {
    if i < |parts| then Js.ToNumber(parts[i]).GetOr(0) else 0
  }

  /** The dashboard's reading of a time column: a missing or empty value
      stands for "00:00", and a part that is not a number counts as 0. */
  function LenientMinutes(t: Option<string>): (m: nat)
    ensures t.None? || t == Some("") ==> m == 0
  {
    var text := if t.None? || t.value == "" then "00:00" else t.value;
    var parts := Text.Split(text, ':');
    assert t.None? || t.value == "" ==> PartOrZero(parts, 0) == 0 && PartOrZero(parts, 1) == 0 by {
      MidnightReadsZero();
    }
    PartOrZero(parts, 0) * 60 + PartOrZero(parts, 1)
  }

  /** Both parts of the "00:00" default read as 0. */
  lemma MidnightReadsZero()
    ensures PartOrZero(Text.Split("00:00", ':'), 0) == 0
    ensures PartOrZero(Text.Split("00:00", ':'), 1) == 0
  {
    assert Text.Join(["00", "00"], ':') == "00:00";
    Text.SplitJoin(["00", "00"], ':');
    assert Text.DigitsValue("00") == 0 by {
      assert "00"[..1] == "0";
    }
  }

  /** The `parseInt` reading: `None` (NaN) when the text has no second part
      or either part does not start with a digit. */
  function StrictMinutes(text: string): (m: Option<nat>)
    ensures m.Some? <==> |Text.Split(text, ':')| >= 2
                          && Js.ParseInt(Text.Split(text, ':')[0]).Some?
                          && Js.ParseInt(Text.Split(text, ':')[1]).Some?
  {
    var parts := Text.Split(text, ':');
    if |parts| < 2 then None
    else
      match (Js.ParseInt(parts[0]), Js.ParseInt(parts[1]))
      case (Some(h), Some(m)) => Some(h * 60 + m)
      case _ => None
  }

  /** Well-formed "HH:MM" text such as an HTML time input produces: two
      digits, a colon, two digits (no range check, as in the application). */
  predicate IsHhMm(s: string)
  {
    |s| == 5 && s[2] == ':' && AllDigits(s[..2]) && AllDigits(s[3..])
  }

  /** The minutes well-formed "HH:MM" text names. */
  function HhMmMinutes(s: string): nat
    requires IsHhMm(s)
  {
    Text.DigitsValue(s[..2]) * 60 + Text.DigitsValue(s[3..])
  }

  /** On any well-formed "HH:MM" text both readings give the minutes it names. */
  lemma WellFormedReadingsAgree(s: string)
    requires IsHhMm(s)
    ensures StrictMinutes(s) == Some(HhMmMinutes(s))
    ensures LenientMinutes(Some(s)) == HhMmMinutes(s)
  {
    var hh, mm := s[..2], s[3..];
    assert ':' !in hh by {
      assert !Text.IsDigit(':');
    }
    assert ':' !in mm by {
      assert !Text.IsDigit(':');
    }
    assert Text.Join([hh, mm], ':') == s by {
      assert Text.Join([mm], ':') == mm;
      assert s == hh + [':'] + mm;
    }
    Text.SplitJoin([hh, mm], ':');
    Js.ParseIntExtendsToNumber(hh);
    Js.ParseIntExtendsToNumber(mm);
  }

  /** "17:00" reads as 1020 minutes both ways. */
  lemma FivePm()
    ensures StrictMinutes("17:00") == Some(1020)
    ensures LenientMinutes(Some("17:00")) == 1020
  {
    var s := "17:00";
    assert s[..2] == "17" && s[3..] == "00";
    assert IsHhMm(s);
    assert Text.DigitsValue("17") == 17 by {
      assert "17"[..1] == "1" && "1"[..0] == "";
    }
    assert Text.DigitsValue("00") == 0 by {
      assert "00"[..1] == "0" && "0"[..0] == "";
    }
    WellFormedReadingsAgree(s);
  }

  /** "09:00" reads as 540 minutes both ways. */
  lemma NineAm()
    ensures StrictMinutes("09:00") == Some(540)
    ensures LenientMinutes(Some("09:00")) == 540
  {
    var s := "09:00";
    assert s[..2] == "09" && s[3..] == "00";
    assert IsHhMm(s);
    assert Text.DigitsValue("09") == 9 by {
      assert "09"[..1] == "0" && "0"[..0] == "";
    }
    assert Text.DigitsValue("00") == 0 by {
      assert "00"[..1] == "0" && "0"[..0] == "";
    }
    WellFormedReadingsAgree(s);
  }

  /** Where the readings part ways: "9:30am" is 9:30 for `parseInt` but
      9:00 for the dashboard, whose `Number("30am")` is NaN. */
  lemma ReadingsDiffer()
    ensures StrictMinutes("9:30am") == Some(570)
    ensures LenientMinutes(Some("9:30am")) == 540
  {
    NineThirtyAmParts();
    assert Js.ParseInt("9") == Some(9) && Js.ToNumber("9") == Some(9) by {
      assert Text.LeadingDigits("9") == "9" by {
        assert "9"[1..] == "";
      }
      assert Text.DigitsValue("9") == 9 by {
        assert "9"[..0] == "";
      }
    }
    assert Js.ParseInt("30am") == Some(30) by {
      assert Text.LeadingDigits("30am") == "30" by {
        assert Text.LeadingDigits("am") == "";
        assert "30am"[1..] == "0am" && "0am"[1..] == "am";
      }
      assert Text.DigitsValue("30") == 30 by {
        assert "30"[..1] == "3" && "3"[..0] == "";
      }
    }
    assert Js.ToNumber("30am") == None by {
      assert !Text.IsDigit("30am"[2]);
    }
  }

  lemma NineThirtyAmParts()
    ensures Text.Split("9:30am", ':') == ["9", "30am"]
  {
    Text.SplitJoin(["9", "30am"], ':');
    assert Text.Join(["9", "30am"], ':') == "9:30am";
  }
}

=== FILE: dashboard.dfy ===
/** The admin dashboard's charts: hours per user, the billable split and the
    six-month trend, all computed from the `timesheet:getAll` rows. A bad row
    never aborts the computation: worked time is clamped at zero and
    unreadable time parts count as zero. */
module Dashboard {
  import opened Wrappers
  import opened Schema
  import Seqs
  import Clock
  import Money
  import Dates
  import Js
  import Text

  /** A row's worked minutes: end minus start minus break, clamped at zero,
      with both times read leniently. */
  function RowMinutes(t: Timesheet): (m: nat)
    ensures m >= Clock.LenientMinutes(t.endTime) - Clock.LenientMinutes(t.startTime) - BreakOrZero(t)
    ensures m == 0 || m == Clock.LenientMinutes(t.endTime) - Clock.LenientMinutes(t.startTime) - BreakOrZero(t)
  {
    var w := Clock.LenientMinutes(t.endTime) - Clock.LenientMinutes(t.startTime) - BreakOrZero(t);
    if w > 0 then w else 0
  }

  function RowHours(r: Row): real
  {
    RowMinutes(r.sheet) as real / 60.0
  }

  /** A row with both times missing reads as 00:00 to 00:00 and, with no
      negative break, contributes nothing. */
  lemma MissingTimesContributeNothing(t: Timesheet)
    requires t.startTime.None? && t.endTime.None?
    requires t.breakMinutes.None? || t.breakMinutes.value >= 0
    ensures RowMinutes(t) == 0
  {
  }

  /** An unreadable start time reads as midnight, so the row still counts
      from 00:00 to its end time instead of contributing nothing. */
  lemma BadStartCountsFromMidnight(t: Timesheet)
    requires t.startTime == Some("bad") && t.endTime == Some("17:00") && t.breakMinutes.None?
    ensures RowMinutes(t) == 1020
  {
    assert "bad" == ['b', 'a', 'd'];
    assert ':' !in "bad";
    assert Text.Split("bad", ':') == ["bad"];
    assert !Text.AllDigits("bad") by { assert !Text.IsDigit("bad"[0]); }
    assert Clock.LenientMinutes(Some("bad")) == 0;
    Clock.FivePm();
  }

  // ---------------------------------------------------------------- per user

  /** The key a row is filed under in the hours-per-user object. */
  function UserKey(r: Row): string
  {
    Js.PropertyKey(r.username)
  }

  function UserKeys(rows: seq<Row>): (keys: seq<string>)
    ensures |keys| == |rows|
    ensures forall i :: 0 <= i < |rows| ==> keys[i] == UserKey(rows[i])
  {
    if |rows| == 0 then [] else UserKeys(rows[..|rows| - 1]) + [UserKey(rows[|rows| - 1])]
  }

  /** Total hours over all rows. */
  function TotalHours(rows: seq<Row>): real
  {
    if |rows| == 0 then 0.0 else TotalHours(rows[..|rows| - 1]) + RowHours(rows[|rows| - 1])
  }

  /** Hours of the rows filed under user key `u`: the reference the chart's
      accumulator is checked against. */
  function UserHours(rows: seq<Row>, u: string): real
  {
    if |rows| == 0 then 0.0
    else UserHours(rows[..|rows| - 1], u)
         + (if UserKey(rows[|rows| - 1]) == u then RowHours(rows[|rows| - 1]) else 0.0)
  }

  lemma {:induction false} UserHoursAbsent(rows: seq<Row>, u: string)
    requires u !in UserKeys(rows)
    ensures UserHours(rows, u) == 0.0
    decreases |rows|
  {
    if |rows| > 0 {
      var init := rows[..|rows| - 1];
      assert UserKeys(rows) == UserKeys(init) + [UserKey(rows[|rows| - 1])];
      UserHoursAbsent(init, u);
    }
  }

  /** The `mapHours` accumulator: one entry per user key met in the rows,
      holding that user's unrounded hours. */
  function HoursByUser(rows: seq<Row>): (m: map<string, real>)
    ensures forall u :: u in m <==> u in UserKeys(rows)
    ensures forall u :: u in m ==> m[u] == UserHours(rows, u)
  {
    if |rows| == 0 then map[]
    else
      var init := rows[..|rows| - 1];
      var r := rows[|rows| - 1];
      var prev := HoursByUser(init);
      var u := UserKey(r);
      assert UserKeys(rows) == UserKeys(init) + [u];
      assert u !in prev ==> UserHours(init, u) == 0.0 by {
        if u !in prev { UserHoursAbsent(init, u); }
      }
      Accumulate(prev, u, RowHours(r))
  }

  /** One step of the accumulator: `hours` added to the slot of `u`, which
      starts from 0. */
  function Accumulate(m: map<string, real>, u: string, hours: real): (m': map<string, real>)
    ensures m'.Keys == m.Keys + {u}
    ensures m'[u] == (if u in m then m[u] else 0.0) + hours
    ensures forall v :: v in m && v != u ==> m'[v] == m[v]
  {
    m[u := (if u in m then m[u] else 0.0) + hours]
  }

  /** The per-user chart data: each user key met in the rows, with that
      user's hours rounded to two decimals. */
  function RoundedHoursByUser(rows: seq<Row>): (m: map<string, real>)
    ensures forall u :: u in m <==> u in UserKeys(rows)
    ensures forall u :: u in m ==> m[u] == Money.Round2(UserHours(rows, u))
  {
    var h := HoursByUser(rows);
    map u | u in h :: Money.Round2(h[u])
  }

  // ------------------------------------------------- plain-object accumulator

  /** A slot of the accumulator object: a number of hours, or the text left
      by adding a number to an inherited function, which the chart's rounding
      turns into NaN. */
  datatype Tally = Hours(hours: real) | Garbled

  /** The `mapHours` loop as written on a plain object `{}`: a key naming an
      inherited method is found truthy, so it is never reset to 0 and `+=`
      concatenates; a `__proto__` key is never stored. */
  function TallyAsWritten(rows: seq<Row>): (m: map<string, Tally>)
    ensures Js.ProtoKey !in m
    ensures forall u :: u in m <==> u in UserKeys(rows) && u != Js.ProtoKey
    ensures forall u :: u in m && u in Js.InheritedMethods ==> m[u] == Garbled
  {
    if |rows| == 0 then map[]
    else
      var init := rows[..|rows| - 1];
      var r := rows[|rows| - 1];
      var prev := TallyAsWritten(init);
      var u := UserKey(r);
      assert UserKeys(rows) == UserKeys(init) + [u];
      Bump(prev, u, RowHours(r))
  }

  /** One step of the loop on the object: a `__proto__` key is not stored;
      a key seen before gets `hours` added (text stays text); a new key is
      set to `hours` unless an inherited method already answers for it. */
  function Bump(m: map<string, Tally>, u: string, hours: real): (m': map<string, Tally>)
    ensures u == Js.ProtoKey ==> m' == m
    ensures u != Js.ProtoKey ==> m'.Keys == m.Keys + {u}
    ensures u != Js.ProtoKey && u in m && m[u].Hours? ==> m'[u] == Hours(m[u].hours + hours)
    ensures u != Js.ProtoKey && u !in m && u !in Js.InheritedMethods ==> m'[u] == Hours(hours)
    ensures u != Js.ProtoKey && ((u !in m && u in Js.InheritedMethods) || (u in m && m[u].Garbled?)) ==> m'[u] == Garbled
    ensures forall v :: v in m && v != u ==> m'[v] == m[v]
  {
    if u == Js.ProtoKey then m
    else if u in m then
      m[u := match m[u] case Hours(h) => Hours(h + hours) case Garbled => Garbled]
    else if u in Js.InheritedMethods then m[u := Garbled]
    else m[u := Hours(hours)]
  }

  /** A user named "constructor" gets NaN hours and a user named
      "__proto__" is missing from the chart, where the intended per-user
      map has each with the row's hours. */
  lemma InheritedNamesBreakTally(t: Timesheet)
    ensures var rows := [Row(1, Some("constructor"), t)];
      && TallyAsWritten(rows)["constructor"] == Garbled
      && HoursByUser(rows)["constructor"] == RowHours(rows[0])
    ensures var rows := [Row(1, Some("__proto__"), t)];
      && "__proto__" !in TallyAsWritten(rows)
      && HoursByUser(rows)["__proto__"] == RowHours(rows[0])
  {
    var rows := [Row(1, Some("constructor"), t)];
    assert rows[..0] == [];
    assert UserKeys(rows) == ["constructor"];
    var rows' := [Row(1, Some("__proto__"), t)];
    assert rows'[..0] == [];
    assert UserKeys(rows') == ["__proto__"];
  }

  /** The tally holds exactly the hours of `h`, as numbers. */
  predicate Agrees(t: map<string, Tally>, h: map<string, real>)
  {
    t.Keys == h.Keys && forall u :: u in t ==> t[u] == Hours(h[u])
  }

  /** One more row under a non-clashing key keeps the tally in agreement. */
  lemma AgreesStep(t: map<string, Tally>, h: map<string, real>, u: string, hours: real)
    requires Agrees(t, h) && !Js.ClashesWithPrototype(u)
    ensures Agrees(Bump(t, u, hours), Accumulate(h, u, hours))
  {
  }

  /** When no user key names an `Object.prototype` member, the object as
      written holds exactly the intended per-user hours. */
  lemma {:induction false} TallyAgreesOffPrototype(rows: seq<Row>)
    requires forall i :: 0 <= i < |rows| ==> !Js.ClashesWithPrototype(UserKey(rows[i]))
    ensures Agrees(TallyAsWritten(rows), HoursByUser(rows))
    decreases |rows|
  {
    if |rows| > 0 {
      var init := rows[..|rows| - 1];
      forall i | 0 <= i < |init|
        ensures !Js.ClashesWithPrototype(UserKey(init[i]))
      {
        assert init[i] == rows[i];
      }
      TallyAgreesOffPrototype(init);
      var last := rows[|rows| - 1];
      var u, hours := UserKey(last), RowHours(last);
      assert !Js.ClashesWithPrototype(u);
      AgreesStep(TallyAsWritten(init), HoursByUser(init), u, hours);
      assert TallyAsWritten(rows) == Bump(TallyAsWritten(init), u, hours);
      assert HoursByUser(rows) == Accumulate(HoursByUser(init), u, hours);
    }
  }

  /** Sum of the per-user totals for the users listed in `users`. */
  function SumOverUsers(users: seq<string>, rows: seq<Row>): real
  {
    if |users| == 0 then 0.0
    else SumOverUsers(users[..|users| - 1], rows) + UserHours(rows, users[|users| - 1])
  }

  /** Adding a row adds its hours to exactly one listed user, if any. */
  lemma {:induction false} SumOverUsersStep(users: seq<string>, rows: seq<Row>, r: Row)
    requires Seqs.NoDuplicates(users)
    ensures SumOverUsers(users, rows + [r])
            == SumOverUsers(users, rows) + (if UserKey(r) in users then RowHours(r) else 0.0)
    decreases |users|
  {
    assert (rows + [r])[..|rows|] == rows;
    if |users| > 0 {
      var init := users[..|users| - 1];
      var last := users[|users| - 1];
      assert Seqs.NoDuplicates(init);
      SumOverUsersStep(init, rows, r);
      assert UserKey(r) in users <==> UserKey(r) in init || UserKey(r) == last;
      assert UserKey(r) == last ==> UserKey(r) !in init;
    }
  }

  /** Before rounding, the per-user totals add up to the hours of all rows:
      every row is counted for exactly one user. */
  lemma {:induction false} PerUserTotalsAddUp(rows: seq<Row>)
    ensures SumOverUsers(Seqs.Distinct(UserKeys(rows)), rows) == TotalHours(rows)
    decreases |rows|
  {
    if |rows| > 0 {
      var init := rows[..|rows| - 1];
      var r := rows[|rows| - 1];
      assert rows == init + [r];
      var keys := UserKeys(rows);
      assert keys[..|keys| - 1] == UserKeys(init);
      var d := Seqs.Distinct(UserKeys(init));
      PerUserTotalsAddUp(init);
      SumOverUsersStep(d, init, r);
      var u := UserKey(r);
      if u !in d {
        assert Seqs.Distinct(keys) == d + [u];
        assert (d + [u])[..|d|] == d;
        assert u !in UserKeys(init);
        UserHoursAbsent(init, u);
        assert UserHours(rows, u) == RowHours(r);
      }
    }
  }

  // ------------------------------------------------------- billable split

  /** `Number(r.billable) === 1`. */
  predicate IsBillable(r: Row)
  {
    r.sheet.billable == Some(1)
  }

  /** Number of rows flagged billable. */
  function BillableCount(rows: seq<Row>): (n: nat)
    ensures n <= |rows|
  {
    if |rows| == 0 then 0
    else BillableCount(rows[..|rows| - 1]) + (if IsBillable(rows[|rows| - 1]) then 1 else 0)
  }

  /** Number of rows not flagged billable, counted on its own. */
  function NotBillableCount(rows: seq<Row>): nat
  {
    if |rows| == 0 then 0
    else NotBillableCount(rows[..|rows| - 1]) + (if IsBillable(rows[|rows| - 1]) then 0 else 1)
  }

  /** The chart's non-billable figure, `rows.length - billableCount`, is the
      number of rows not flagged billable; the two slices cover every row. */
  lemma {:induction false} BillableSplit(rows: seq<Row>)
    ensures |rows| - BillableCount(rows) == NotBillableCount(rows)
    ensures (forall i :: 0 <= i < |rows| ==> IsBillable(rows[i])) <==> BillableCount(rows) == |rows|
    decreases |rows|
  {
    if |rows| > 0 {
      var init := rows[..|rows| - 1];
      BillableSplit(init);
      if forall i :: 0 <= i < |rows| ==> IsBillable(rows[i]) {
        assert forall i :: 0 <= i < |init| ==> IsBillable(init[i]) by {
          forall i | 0 <= i < |init| ensures IsBillable(init[i]) { assert init[i] == rows[i]; }
        }
      } else if BillableCount(rows) == |rows| {
        assert BillableCount(init) == |init|;
        forall i | 0 <= i < |rows| ensures IsBillable(rows[i])
        {
          if i < |init| { assert init[i] == rows[i]; }
        }
      }
    }
  }

  // -------------------------------------------------------- monthly trend

  /** The month `new Date(r.date)` falls in. A NULL date is the epoch
      (January 1970); text that is not a date-only ISO string is `None`
      (an invalid date, skipped). */
  function RowMonth(r: Row): (m: Option<Dates.YearMonth>)
    ensures m.Some? ==> Dates.ValidMonth(m.value)
    ensures r.sheet.date.None? ==> m == Some(Dates.YearMonth(1970, 0))
    ensures r.sheet.date.Some? ==>
              (m.Some? <==> Dates.ParseIsoDate(r.sheet.date.value).Some?)
              && (m.Some? ==> m.value == Dates.MonthOf(Dates.ParseIsoDate(r.sheet.date.value).value))
  {
    match r.sheet.date
    case None => Some(Dates.YearMonth(1970, 0))
    case Some(s) =>
      match Dates.ParseIsoDate(s)
      case None => None
      case Some(d) => Some(Dates.MonthOf(d))
  }

  /** Hours of the rows dated in month `ym`: the reference for the trend. */
  function MonthHours(rows: seq<Row>, ym: Dates.YearMonth): real
  {
    if |rows| == 0 then 0.0
    else MonthHours(rows[..|rows| - 1], ym)
         + (if RowMonth(rows[|rows| - 1]) == Some(ym) then RowHours(rows[|rows| - 1]) else 0.0)
  }

  /** Under each month's "YYYY-MM" key, `m` holds the hours of `rows` in
      that month. */
  ghost predicate KeyedHours(m: map<string, real>, rows: seq<Row>)
  {
    forall ym :: Dates.ValidMonth(ym) && Dates.MonthKey(ym) in m ==>
      m[Dates.MonthKey(ym)] == MonthHours(rows, ym)
  }

  /** A month without a key in `m` has no hours in `rows`. */
  ghost predicate UnkeyedZero(m: map<string, real>, rows: seq<Row>)
  {
    forall ym :: Dates.ValidMonth(ym) && Dates.MonthKey(ym) !in m ==> MonthHours(rows, ym) == 0.0
  }

  /** Every key of `m` is some month's key. */
  ghost predicate MonthKeysOnly(m: map<string, real>)
  {
    forall k :: k in m ==> exists ym :: Dates.ValidMonth(ym) && k == Dates.MonthKey(ym)
  }

  /** One step of the `monthMap` loop: a row with a valid date adds its
      hours under its month's key; a row with an invalid date is skipped. */
  function FileRow(m: map<string, real>, r: Row): map<string, real>
  {
    match RowMonth(r)
    case None => m
    case Some(ym) => Accumulate(m, Dates.MonthKey(ym), RowHours(r))
  }

  lemma FileRowKeyed(m: map<string, real>, rows: seq<Row>)
    requires |rows| > 0
    requires KeyedHours(m, rows[..|rows| - 1]) && UnkeyedZero(m, rows[..|rows| - 1])
    ensures KeyedHours(FileRow(m, rows[|rows| - 1]), rows)
  {
    var init, r := rows[..|rows| - 1], rows[|rows| - 1];
    var m' := FileRow(m, r);
    forall ym | Dates.ValidMonth(ym) && Dates.MonthKey(ym) in m'
      ensures m'[Dates.MonthKey(ym)] == MonthHours(rows, ym)
    {
      var k := Dates.MonthKey(ym);
      assert MonthHours(rows, ym) == MonthHours(init, ym)
               + (if RowMonth(r) == Some(ym) then RowHours(r) else 0.0);
      match RowMonth(r)
      case None =>
        assert m' == m;
      case Some(ym0) =>
        var k0 := Dates.MonthKey(ym0);
        assert m' == Accumulate(m, k0, RowHours(r));
        if ym == ym0 {
          assert MonthHours(init, ym) == Lookup(m, k0);
        } else {
          if k == k0 {
            Dates.MonthKeyInjective(ym, ym0);
          }
          assert m'[k] == m[k];
        }
    }
  }

  lemma FileRowUnkeyed(m: map<string, real>, rows: seq<Row>)
    requires |rows| > 0 && UnkeyedZero(m, rows[..|rows| - 1])
    ensures UnkeyedZero(FileRow(m, rows[|rows| - 1]), rows)
  {
    var r := rows[|rows| - 1];
    var m' := FileRow(m, r);
    forall ym | Dates.ValidMonth(ym) && Dates.MonthKey(ym) !in m'
      ensures MonthHours(rows, ym) == 0.0
    {
      assert RowMonth(r) != Some(ym);
    }
  }

  lemma FileRowMonthKeys(m: map<string, real>, r: Row)
    requires MonthKeysOnly(m)
    ensures MonthKeysOnly(FileRow(m, r))
  {
    var m' := FileRow(m, r);
    forall k | k in m'
      ensures exists ym :: Dates.ValidMonth(ym) && k == Dates.MonthKey(ym)
    {
      if k !in m {
        var ym0 := RowMonth(r).value;
        assert Dates.ValidMonth(ym0) && k == Dates.MonthKey(ym0);
      }
    }
  }

  /** The `monthMap` accumulator keyed by "YYYY-MM": a key for every month
      some row is dated in, holding that month's unrounded hours. */
  function HoursByMonth(rows: seq<Row>): (m: map<string, real>)
    ensures forall ym :: Dates.ValidMonth(ym) && Dates.MonthKey(ym) in m ==>
              m[Dates.MonthKey(ym)] == MonthHours(rows, ym)
    ensures forall ym :: Dates.ValidMonth(ym) && Dates.MonthKey(ym) !in m ==>
              MonthHours(rows, ym) == 0.0
    ensures forall k :: k in m ==> exists ym :: Dates.ValidMonth(ym) && k == Dates.MonthKey(ym)
  {
    if |rows| == 0 then map[]
    else
      var prev := HoursByMonth(rows[..|rows| - 1]);
      FileRowKeyed(prev, rows);
      FileRowUnkeyed(prev, rows);
      FileRowMonthKeys(prev, rows[|rows| - 1]);
      FileRow(prev, rows[|rows| - 1])
  }

  /** `monthMap[key] || 0`. */
  function Lookup(m: map<string, real>, k: string): real
  {
    if k in m then m[k] else 0.0
  }

  /** Looking a month's key up in the accumulator gives that month's hours,
      0 when no row is dated in it. */
  lemma MonthLookup(rows: seq<Row>, ym: Dates.YearMonth)
    requires Dates.ValidMonth(ym)
    ensures Lookup(HoursByMonth(rows), Dates.MonthKey(ym)) == MonthHours(rows, ym)
  {
  }

  datatype TrendPoint = TrendPoint(month: Dates.YearMonth, hours: real)

  /** The trend's months: five back to zero back from `base`, oldest
      first, each one month after the one before. */
  function TrendMonths(base: Dates.YearMonth): (ms: seq<Dates.YearMonth>)
    requires Dates.ValidMonth(base)
    ensures |ms| == 6 && ms[5] == base
    ensures forall i :: 0 <= i < 5 ==> ms[i + 1] == Dates.AddMonths(ms[i], 1)
    ensures forall i :: 0 <= i < 6 ==> Dates.ValidMonth(ms[i])
  {
    var ms := seq(6, i requires 0 <= i < 6 => Dates.AddMonths(base, i - 5));
    Dates.AddMonthsZero(base);
    forall i | 0 <= i < 5
      ensures ms[i + 1] == Dates.AddMonths(ms[i], 1)
    {
      Dates.AddMonthsStep(base, i - 5);
    }
    ms
  }

  /** One point per trend month of `base`, its hours looked up in `byMonth`
      and rounded to two decimals. */
  function TrendFrom(byMonth: map<string, real>, base: Dates.YearMonth): (t: seq<TrendPoint>)
    requires Dates.ValidMonth(base)
    ensures |t| == 6
    ensures forall i :: 0 <= i < 6 ==>
              t[i].month == TrendMonths(base)[i]
              && t[i].hours == Money.Round2(Lookup(byMonth, Dates.MonthKey(t[i].month)))
  {
    var ms := TrendMonths(base);
    seq(6, i requires 0 <= i < 6 => TrendPoint(ms[i], Money.Round2(Lookup(byMonth, Dates.MonthKey(ms[i])))))
  }

  /** The six-month trend for `today` (`now.getFullYear()`, `now.getMonth()`):
      months five back to zero back, oldest first, each with its hours
      rounded to two decimals and 0 for a month without rows. */
  function Trend(rows: seq<Row>, today: Dates.YearMonth): (t: seq<TrendPoint>)
    requires Dates.ValidMonth(today)
    ensures |t| == 6
    ensures t[5].month == Dates.YearMonth(Dates.ConstructorYear(today.year), today.month)
    ensures forall i :: 0 <= i < 5 ==> t[i + 1].month == Dates.AddMonths(t[i].month, 1)
    ensures forall i :: 0 <= i < 6 ==> Dates.ValidMonth(t[i].month)
    ensures forall i :: 0 <= i < 6 ==> t[i].hours == Money.Round2(MonthHours(rows, t[i].month))
  {
    var base := Dates.YearMonth(Dates.ConstructorYear(today.year), today.month);
    var ms := TrendMonths(base);
    var t := TrendFrom(HoursByMonth(rows), base);
    forall i | 0 <= i < 6
      ensures t[i].hours == Money.Round2(MonthHours(rows, t[i].month))
    {
      MonthLookup(rows, t[i].month);
    }
    t
  }
}

=== FILE: dates.dfy ===
/** Calendar arithmetic and the date strings the application builds and
    reads. Months are 0-based, as JavaScript's `Date.getMonth()` returns them.
    Dates are written in the extended complete calendar-date form of
    ISO 8601:2004 section 4.1.2.2, "YYYY-MM-DD". */
module Dates {
  import opened Wrappers
  import opened Text

  datatype YearMonth = YearMonth(year: int, month: int)

  predicate ValidMonth(ym: YearMonth) { 0 <= ym.month < 12 }

  /** Months since January of year 0. */
  function MonthIndex(ym: YearMonth): int { 12 * ym.year + ym.month }

  function FromMonthIndex(k: int): (ym: YearMonth)
    ensures ValidMonth(ym) && MonthIndex(ym) == k
  {
    YearMonth(k / 12, k % 12)
  }

  /** A valid month is determined by its index. */
  lemma MonthIndexInjective(a: YearMonth, b: YearMonth)
    requires ValidMonth(a) && ValidMonth(b) && MonthIndex(a) == MonthIndex(b)
    ensures a == b
  {
  }

  /** `k` months after `ym` (before it when `k` is negative), with the month
      overflow carried into the year as `new Date(y, m + k, 1)` does. */
  function AddMonths(ym: YearMonth, k: int): (r: YearMonth)
    ensures ValidMonth(r) && MonthIndex(r) == MonthIndex(ym) + k
  {
    FromMonthIndex(MonthIndex(ym) + k)
  }

  /** Adding no months to a valid month leaves it as it is. */
  lemma AddMonthsZero(ym: YearMonth)
    requires ValidMonth(ym)
    ensures AddMonths(ym, 0) == ym
  {
    MonthIndexInjective(AddMonths(ym, 0), ym);
  }

  /** Moving `k + 1` months is moving `k` months and then one more. */
  lemma AddMonthsStep(ym: YearMonth, k: int)
    ensures AddMonths(ym, k + 1) == AddMonths(AddMonths(ym, k), 1)
  {
    MonthIndexInjective(AddMonths(ym, k + 1), AddMonths(AddMonths(ym, k), 1));
  }

  /** The Date constructor reads a year argument of 0..99 as 1900..1999. */
  function ConstructorYear(y: int): int
  {
    if 0 <= y <= 99 then 1900 + y else y
  }

  /** Leap years of the proleptic Gregorian calendar. */
  predicate IsLeapYear(y: int)
  {
    (y % 4 == 0 && y % 100 != 0) || y % 400 == 0
  }

  function DaysInMonth(y: int, m: int): (n: int)
    requires 0 <= m < 12
    ensures 28 <= n <= 31
  {
    if m == 1 then (if IsLeapYear(y) then 29 else 28)
    else if m == 3 || m == 5 || m == 8 || m == 10 then 30
    else 31
  }

  datatype Date = Date(year: int, month: int, day: int)

  predicate ValidDate(d: Date)
  {
    0 <= d.month < 12 && 1 <= d.day <= DaysInMonth(d.year, d.month)
  }

  function MonthOf(d: Date): YearMonth { YearMonth(d.year, d.month) }

  /** Chronological order of dates. */
  predicate DateLe(a: Date, b: Date)
  {
    a.year < b.year
    || (a.year == b.year && a.month < b.month)
    || (a.year == b.year && a.month == b.month && a.day <= b.day)
  }

  /** Shape of "YYYY-MM-DD": ten characters, dashes at 4 and 7, digits elsewhere. */
  predicate IsoShape(s: string)
  {
    |s| == 10 && s[4] == '-' && s[7] == '-'
    && AllDigits(s[..4]) && AllDigits(s[5..7]) && AllDigits(s[8..])
  }

  /** A date-only ISO string read as the calendar date it names; `None` for
      text of another shape and for a month or day out of range. */
  function ParseIsoDate(s: string): (r: Option<Date>)
    ensures r.Some? ==> ValidDate(r.value) && 0 <= r.value.year <= 9999 && IsoShape(s)
  {
    if IsoShape(s) then
      var y := DigitsValue(s[..4]);
      var m := DigitsValue(s[5..7]);
      var d := DigitsValue(s[8..]);
      DigitsValueBound(s[..4]);
      if 1 <= m <= 12 && 1 <= d <= DaysInMonth(y, m - 1) then Some(Date(y, m - 1, d)) else None
    else None
  }

  /** `${y}-${String(m + 1).padStart(2, '0')}-${String(d).padStart(2, '0')}`,
      the key the calendar gives each day cell. */
  function DateKey(y: int, m: nat, d: nat): string
  {
    ShowInt(y) + "-" + Pad2(m + 1) + "-" + Pad2(d)
  }

  /** `${y}-${String(m + 1).padStart(2, '0')}`, the key of a month in the trend. */
  function MonthKey(ym: YearMonth): string
    requires ValidMonth(ym)
  {
    ShowInt(ym.year) + "-" + Pad2(ym.month + 1)
  }

  /** Month keys of different months differ. */
  lemma MonthKeyInjective(a: YearMonth, b: YearMonth)
    requires ValidMonth(a) && ValidMonth(b) && MonthKey(a) == MonthKey(b)
    ensures a == b
  {
    var ka := MonthKey(a);
    var n := |ka|;
    assert ShowInt(a.year) == ka[..n - 3];
    assert ShowInt(b.year) == MonthKey(b)[..n - 3];
    ShowIntInjective(a.year, b.year);
    assert Pad2(a.month + 1) == ka[n - 2..];
    assert Pad2(b.month + 1) == MonthKey(b)[n - 2..];
  }

  /** Four-digit years: keys the calendar builds read back as the same date. */
  lemma DateKeyParses(d: Date)
    requires ValidDate(d) && 1000 <= d.year <= 9999
    ensures ParseIsoDate(DateKey(d.year, d.month, d.day)) == Some(d)
  {
    var s := DateKey(d.year, d.month, d.day);
    ShowNatLength(d.year);
    ShowNatRoundTrip(d.year);
    assert s[..4] == ShowNat(d.year);
    assert s[5..7] == Pad2(d.month + 1);
    assert s[8..] == Pad2(d.day);
  }

  /** A canonical digit string (no leading zero) is what `String` prints for its value. */
  lemma {:induction false} ShowNatOfDigits(t: string)
    requires AllDigits(t) && |t| >= 1 && (|t| == 1 || t[0] != '0')
    ensures ShowNat(DigitsValue(t)) == t
    decreases |t|
  {
    if |t| >= 2 {
      var t' := t[..|t| - 1];
      DigitsValueFront(t);
      assert DigitValue(t[0]) >= 1;
      assert Pow10(|t| - 1) >= 10 by { Pow10AtLeast(|t| - 1); }
      assert DigitsValue(t) >= 10;
      ShowNatOfDigits(t');
      assert t == t' + [t[|t| - 1]];
    }
  }

  lemma {:induction false} Pow10AtLeast(k: nat)
    requires k >= 1
    ensures Pow10(k) >= 10
  {
    if k > 1 {
      Pow10AtLeast(k - 1);
    }
  }

  /** Two digits read and padded back give the same two digits. */
  lemma Pad2OfDigits(t: string)
    requires |t| == 2 && AllDigits(t)
    ensures Pad2(DigitsValue(t)) == t
  {
    var v := DigitsValue(t);
    assert t[..1] == [t[0]];
    if t[0] == '0' {
      ShowNatOfDigits(t[1..]);
      DigitsValueFront(t);
      assert DigitsValue(t[1..]) == v;
    } else {
      ShowNatOfDigits(t);
      assert v >= 10;
    }
  }

  /** Conversely, a parsed date with a four-digit year is its own key. */
  lemma ParsedDateIsKey(s: string)
    requires ParseIsoDate(s).Some? && ParseIsoDate(s).value.year >= 1000
    ensures var d := ParseIsoDate(s).value; DateKey(d.year, d.month, d.day) == s
  {
    var d := ParseIsoDate(s).value;
    assert s[0] != '0' by {
      assert Pow10(3) == 1000;
      assert s[..4][0] == s[0];
      DigitsValueFront(s[..4]);
      DigitsValueBound(s[1..4]);
      assert s[1..4] == s[..4][1..];
    }
    ShowNatOfDigits(s[..4]);
    Pad2OfDigits(s[5..7]);
    Pad2OfDigits(s[8..]);
    assert s == s[..4] + "-" + s[5..7] + "-" + s[8..];
  }

  /** Same-width digit strings with equal values are equal. */
  lemma DigitsEqual(a: string, b: string)
    requires |a| == |b| && AllDigits(a) && AllDigits(b) && DigitsValue(a) == DigitsValue(b)
    ensures a == b
  {
    LexLeDigits(a, b);
    LexLeDigits(b, a);
    LexLeAntisymmetric(a, b);
  }

  lemma {:induction false} LexLeAntisymmetric(a: string, b: string)
    requires LexLe(a, b) && LexLe(b, a)
    ensures a == b
    decreases |a|
  {
    if |a| > 0 && |b| > 0 {
      LexLeAntisymmetric(a[1..], b[1..]);
      assert a == [a[0]] + a[1..] && b == [b[0]] + b[1..];
    }
  }

  /** One field of a date string decides the comparison unless it is equal. */
  lemma FieldDecides(a: string, b: string, i: nat, j: nat)
    requires i <= j <= |a| && j <= |b| && a[..i] == b[..i]
    requires AllDigits(a[i..j]) && AllDigits(b[i..j])
    ensures LexLe(a[i..], b[i..]) <==>
      (if DigitsValue(a[i..j]) == DigitsValue(b[i..j]) then LexLe(a[j..], b[j..])
       else DigitsValue(a[i..j]) < DigitsValue(b[i..j]))
  {
    assert a[i..] == a[i..j] + a[j..] && b[i..] == b[i..j] + b[j..];
    LexLeConcat(a[i..j], a[j..], b[i..j], b[j..]);
    LexLeDigits(a[i..j], b[i..j]);
    if DigitsValue(a[i..j]) == DigitsValue(b[i..j]) {
      DigitsEqual(a[i..j], b[i..j]);
    } else if a[i..j] == b[i..j] {
      assert false;
    }
  }

  /** The same-length dash after a field compares equal. */
  lemma DashSkip(a: string, b: string, i: nat)
    requires i < |a| && i < |b| && a[i] == '-' && b[i] == '-'
    ensures LexLe(a[i..], b[i..]) <==> LexLe(a[i + 1..], b[i + 1..])
  {
    assert a[i..][1..] == a[i + 1..] && b[i..][1..] == b[i + 1..];
  }

  /** Comparing ISO date strings as text is comparing the dates they name
      chronologically: the reason "date >= first of month" selects this
      month's rows. */
  lemma IsoOrderIsChronological(a: string, b: string)
    requires ParseIsoDate(a).Some? && ParseIsoDate(b).Some?
    ensures LexLe(a, b) <==> DateLe(ParseIsoDate(a).value, ParseIsoDate(b).value)
  {
    var da := ParseIsoDate(a).value;
    var db := ParseIsoDate(b).value;
    assert a[0..] == a && b[0..] == b;
    assert a[0..4] == a[..4] && b[0..4] == b[..4];
    assert a[8..10] == a[8..] && b[8..10] == b[8..];
    FieldDecides(a, b, 0, 4);
    if da.year == db.year {
      DigitsEqual(a[..4], b[..4]);
      DashSkip(a, b, 4);
      assert a[..5] == b[..5] by {
        assert a[..5] == a[..4] + [a[4]] && b[..5] == b[..4] + [b[4]];
      }
      FieldDecides(a, b, 5, 7);
      if da.month == db.month {
        DigitsEqual(a[5..7], b[5..7]);
        DashSkip(a, b, 7);
        assert a[..8] == b[..8] by {
          assert a[..8] == a[..5] + a[5..7] + [a[7]] && b[..8] == b[..5] + b[5..7] + [b[7]];
        }
        FieldDecides(a, b, 8, 10);
        assert a[10..] == [] && b[10..] == [];
      }
    }
  }
}

=== FILE: handlers.dfy ===
/** The request handlers of the main process that decide something: login,
    user editing and deletion with its cascade, timesheet add/update/delete,
    and approval. Each handler is a transition of the database. */
module Handlers {
  import opened Wrappers
  import opened Schema
  import Js
  import Billing

  // ------------------------------------------------------------------ login

  /** The user record `auth:login` returns: every column but the password. */
  datatype PublicUser = PublicUser(id: int, username: string, role: string,
                                   companyId: Js.Value, active: int)

  datatype LoginResult = LoginFailed(message: string) | LoggedIn(user: PublicUser)

  function Public(id: int, u: User): PublicUser
  {
    PublicUser(id, u.username, u.role, u.companyId, u.active)
  }

  /** The decision for the user row found. An inactive user who is not an
      admin is turned away before the password is looked at; an inactive
      admin may still log in. `matches(password, hash)` stands for bcrypt's
      comparison. */
  function Decide(id: int, u: User, password: string, matches: (string, string) -> bool): (r: LoginResult)
    ensures u.active == 0 && u.role != "admin" ==> r == LoginFailed("User is deactivated")
    ensures ((u.active != 0 || u.role == "admin") && !matches(password, u.passwordHash))
              ==> r == LoginFailed("Incorrect password")
    ensures r.LoggedIn? <==> (u.active != 0 || u.role == "admin") && matches(password, u.passwordHash)
    ensures r.LoggedIn? ==> r.user == Public(id, u)
  {
    if u.active == 0 && u.role != "admin" then LoginFailed("User is deactivated")
    else if !matches(password, u.passwordHash) then LoginFailed("Incorrect password")
    else LoggedIn(Public(id, u))
  }

  /** `auth:login`. The query's row order is unspecified, so any user row with
      the name may be the one found; the UNIQUE constraint makes it the only one. */
  method Login(db: Db, username: string, password: string, matches: (string, string) -> bool)
    returns (r: LoginResult)
    ensures (r == LoginFailed("User not found"))
              <==> (forall id :: id in db.users ==> db.users[id].username != username)
    ensures r != LoginFailed("User not found") ==>
              exists id :: id in db.users && db.users[id].username == username
                           && r == Decide(id, db.users[id], password, matches)
    ensures UniqueUsernames(db.users) ==>
              forall id :: id in db.users && db.users[id].username == username
                           ==> r == Decide(id, db.users[id], password, matches)
  {
    if forall id :: id in db.users ==> db.users[id].username != username {
      return LoginFailed("User not found");
    }
    var id :| id in db.users && db.users[id].username == username;
    r := Decide(id, db.users[id], password, matches);
  }

  // ------------------------------------------------------------ user admin

  /** The message SQLite gives when an update would duplicate a user name. */
  const UniqueUsernameViolation := "UNIQUE constraint failed: users.username"

  /** `admin:editUser`: sets name, role, company (a falsy company becomes
      NULL) and active flag (1 if truthy, else 0) of one user. A name taken by
      another user violates the UNIQUE constraint and changes nothing; an
      unknown id updates no row. */
  function EditUser(db: Db, userId: int, username: string, role: string,
                    companyId: Js.Value, active: Js.Value): (out: (Db, Response))
    ensures var (db', resp) := out;
      && db'.companies == db.companies && db'.timesheets == db.timesheets
      && db'.comments == db.comments
      && db'.lastTimesheetId == db.lastTimesheetId && db'.lastCommentId == db.lastCommentId
      && db'.users.Keys == db.users.Keys
      && (forall id :: id in db.users && id != userId ==> db'.users[id] == db.users[id])
      && (resp.Failed? <==>
            (userId in db.users &&
             exists other :: other in db.users && other != userId && db.users[other].username == username))
      && (resp.Failed? ==> db' == db)
      && (resp.Ok? && userId in db.users ==>
            var u := db'.users[userId];
            && u.username == username && u.role == role
            && u.passwordHash == db.users[userId].passwordHash
            && u.active == (if Js.Truthy(active) then 1 else 0)
            && u.companyId == (if Js.Truthy(companyId) then companyId else Js.Null))
      && (UniqueUsernames(db.users) ==> UniqueUsernames(db'.users))
  {
    if userId !in db.users then (db, Ok)
    else if exists other :: other in db.users && other != userId && db.users[other].username == username then
      (db, Failed(UniqueUsernameViolation))
    else
      var u := db.users[userId];
      var u' := User(username, u.passwordHash, role, Js.Or(companyId, Js.Null),
                     if Js.Truthy(active) then 1 else 0);
      (db.(users := db.users[userId := u']), Ok)
  }

  /** `admin:deleteUser`: removes the user and every timesheet whose
      `user_id` is that user. Companies and comments are untouched, so
      comments on the removed timesheets stay behind. */
  function DeleteUser(db: Db, userId: int): (db': Db)
    ensures db'.users.Keys == db.users.Keys - {userId}
    ensures forall id :: id in db'.users ==> db'.users[id] == db.users[id]
    ensures forall id :: id in db'.timesheets <==>
              id in db.timesheets && db.timesheets[id].userId != Some(userId)
    ensures forall id :: id in db'.timesheets ==> db'.timesheets[id] == db.timesheets[id]
    ensures db'.companies == db.companies && db'.comments == db.comments
    ensures db'.lastTimesheetId == db.lastTimesheetId && db'.lastCommentId == db.lastCommentId
    ensures Valid(db) ==> Valid(db')
  {
    db.(users := db.users - {userId},
        timesheets := map id | id in db.timesheets && db.timesheets[id].userId != Some(userId)
                                :: db.timesheets[id])
  }

  // ------------------------------------------------------------ timesheets

  /** `entry.status || "pending"`. */
  function StatusOrPending(status: Option<string>): (s: string)
    ensures s != ""
    ensures status.Some? && status.value != "" ==> s == status.value
    ensures status.None? || status.value == "" ==> s == "pending"
  {
    if status.Some? && status.value != "" then status.value else "pending"
  }

  /** The row `timesheet:add` inserts for an entry. */
  function NewTimesheet(e: Entry): Timesheet
  {
    Timesheet(e.userId, e.date, e.task, e.startTime, e.endTime, e.breakMinutes,
              e.billable, e.ratePerHour, e.billableAmount, e.companyId,
              StatusOrPending(e.status))
  }

  /** `timesheet:add`: inserts the entry under the next AUTOINCREMENT id, its
      status defaulting to "pending"; nothing else changes. */
  function AddTimesheet(db: Db, e: Entry): (out: (Db, int))
    ensures var (db', id) := out;
      && id == db.lastTimesheetId + 1 && db'.lastTimesheetId == id
      && (Valid(db) ==> id !in db.timesheets && Valid(db'))
      && db'.timesheets.Keys == db.timesheets.Keys + {id}
      && (forall k :: k in db.timesheets && k != id ==> db'.timesheets[k] == db.timesheets[k])
      && db'.timesheets[id] == NewTimesheet(e)
      && db'.timesheets[id].status == StatusOrPending(e.status)
      && db'.timesheets[id].userId == e.userId
      && db'.users == db.users && db'.companies == db.companies && db'.comments == db.comments
      && db'.lastCommentId == db.lastCommentId
  {
    var id := db.lastTimesheetId + 1;
    (db.(timesheets := db.timesheets[id := NewTimesheet(e)], lastTimesheetId := id), id)
  }

  /** `timesheet:update`: overwrites every column of row `e.id` but its
      `user_id`, the status defaulting to "pending"; an unknown id changes
      nothing. */
  function UpdateTimesheet(db: Db, e: Entry): (db': Db)
    ensures db'.timesheets.Keys == db.timesheets.Keys
    ensures forall k :: k in db.timesheets && k != e.id ==> db'.timesheets[k] == db.timesheets[k]
    ensures e.id in db.timesheets ==>
              db'.timesheets[e.id] == NewTimesheet(e).(userId := db.timesheets[e.id].userId)
    ensures db'.users == db.users && db'.companies == db.companies && db'.comments == db.comments
    ensures db'.lastTimesheetId == db.lastTimesheetId && db'.lastCommentId == db.lastCommentId
    ensures e.id !in db.timesheets ==> db' == db
    ensures Valid(db) ==> Valid(db')
  {
    if e.id !in db.timesheets then db
    else
      var t := NewTimesheet(e).(userId := db.timesheets[e.id].userId);
      db.(timesheets := db.timesheets[e.id := t])
  }

  /** Saving the edit dialog and applying the update it sends changes only the
      task, times, break, rate and amount of the edited row; its date, owner,
      billable flag, company and (non-empty) status stay as they were, and no
      other row changes. */
  lemma SaveEditChangesOnlyEditedFields(db: Db, id: int, username: Option<string>, form: Billing.EditForm)
    requires id in db.timesheets && db.timesheets[id].status != ""
    requires Billing.SaveEdit(Some(Row(id, username, db.timesheets[id])), form).Some?
    ensures var payload := Billing.SaveEdit(Some(Row(id, username, db.timesheets[id])), form).value;
      var db' := UpdateTimesheet(db, payload);
      var before := db.timesheets[id];
      var after := db'.timesheets[id];
      && after == before.(task := Js.Trim(form.task),
                          startTime := Some(form.start), endTime := Some(form.end),
                          breakMinutes := Some(form.breakMinutes), ratePerHour := form.rate,
                          billableAmount := Billing.ComputeAmount(form.start, form.end, form.breakMinutes, form.rate))
      && (forall k :: k in db.timesheets && k != id ==> db'.timesheets[k] == db.timesheets[k])
      && db'.timesheets.Keys == db.timesheets.Keys
  {
  }

  /** `timesheet:delete`: removes the timesheet and every comment on it;
      nothing else changes. */
  function DeleteTimesheet(db: Db, id: int): (db': Db)
    ensures db'.timesheets.Keys == db.timesheets.Keys - {id}
    ensures forall k :: k in db'.timesheets ==> db'.timesheets[k] == db.timesheets[k]
    ensures forall c :: c in db'.comments <==> c in db.comments && db.comments[c].timesheetId != id
    ensures forall c :: c in db'.comments ==> db'.comments[c] == db.comments[c]
    ensures db'.users == db.users && db'.companies == db.companies
    ensures db'.lastTimesheetId == db.lastTimesheetId && db'.lastCommentId == db.lastCommentId
    ensures Valid(db) ==> Valid(db')
  {
    db.(timesheets := db.timesheets - {id},
        comments := map c | c in db.comments && db.comments[c].timesheetId != id :: db.comments[c])
  }

  /** `action === "approve" ? "approved" : "rejected"`. */
  function ApprovalStatus(action: Option<string>): (s: string)
    ensures s == "approved" <==> action == Some("approve")
    ensures s != "approved" ==> s == "rejected"
  {
    if action == Some("approve") then "approved" else "rejected"
  }

  /** Whether `note && note.trim()` holds: the note has text besides white space. */
  predicate HasNote(note: Option<string>)
  {
    note.Some? && Js.Trim(note.value) != ""
  }

  /** The status update of `timesheet:approve`; an unknown id updates no row. */
  function SetStatus(sheets: map<int, Timesheet>, id: int, status: string): (r: map<int, Timesheet>)
    ensures r.Keys == sheets.Keys
    ensures forall k :: k in sheets && k != id ==> r[k] == sheets[k]
    ensures id in sheets ==> r[id] == sheets[id].(status := status)
  {
    if id in sheets then sheets[id := sheets[id].(status := status)] else sheets
  }

  /** `timesheet:approve`: sets the status of timesheet `id` from the action
      and, when the note has text after trimming, records the trimmed note as
      an admin comment dated `now` under the next comment id. The comment is
      recorded even when no timesheet has that id. */
  function Approve(db: Db, id: int, action: Option<string>, adminId: int,
                   note: Option<string>, now: string): (db': Db)
    ensures db'.timesheets == SetStatus(db.timesheets, id, ApprovalStatus(action))
    ensures HasNote(note) ==>
              && db'.lastCommentId == db.lastCommentId + 1
              && db'.comments == db.comments[db'.lastCommentId :=
                   Comment(id, adminId, "admin", Js.Trim(note.value), now)]
    ensures !HasNote(note) ==>
              db'.comments == db.comments && db'.lastCommentId == db.lastCommentId
    ensures db'.users == db.users && db'.companies == db.companies
    ensures db'.lastTimesheetId == db.lastTimesheetId
  {
    var sheets := SetStatus(db.timesheets, id, ApprovalStatus(action));
    if HasNote(note) then
      var cid := db.lastCommentId + 1;
      db.(timesheets := sheets,
          comments := db.comments[cid := Comment(id, adminId, "admin", Js.Trim(note.value), now)],
          lastCommentId := cid)
    else
      db.(timesheets := sheets)
  }

  /** Approval keeps the database well formed: the new comment's id is above
      every existing one, and users are untouched. */
  lemma ApprovePreservesValid(db: Db, id: int, action: Option<string>, adminId: int,
                              note: Option<string>, now: string)
    requires Valid(db)
    ensures Valid(Approve(db, id, action, adminId, note, now))
  {
    var db' := Approve(db, id, action, adminId, note, now);
    assert db'.timesheets.Keys == db.timesheets.Keys;
    forall c | c in db'.comments
      ensures c <= db'.lastCommentId
    {
      if HasNote(note) && c !in db.comments {
        assert c == db.lastCommentId + 1;
      }
    }
  }
}

=== FILE: js.dfy ===
/** The JavaScript coercions the application leans on: truthiness, `||`
    defaults, `String.prototype.trim`, `Number(string)` and `parseInt`. */
module Js {
  import opened Wrappers
  import opened Text

  /** A loosely typed value as it crosses the renderer/main-process bridge. */
  datatype Value = Undefined | Null | Bool(b: bool) | Number(n: real) | NaN | Str(s: string)

  /** JavaScript truthiness: `false`, `0`, `NaN`, `""`, `null` and `undefined` are falsy. */
  predicate Truthy(v: Value)
  {
    match v
    case Undefined => false
    case Null => false
    case Bool(b) => b
    case Number(n) => n != 0.0
    case NaN => false
    case Str(s) => s != ""
  }

  /** `a || b`. */
  function Or(a: Value, b: Value): (r: Value)
    ensures Truthy(a) ==> r == a
    ensures !Truthy(a) ==> r == b
  {
    if Truthy(a) then a else b
  }

  /** The characters `trim` removes: WhiteSpace and LineTerminator of
      ECMA-262 (tab, line tabulation, form feed, BOM, the Unicode space
      separators, LF, CR, U+2028 and U+2029). */
  predicate IsWhitespace(c: char)
  {
    var n := c as int;
    n == 0x09 || n == 0x0A || n == 0x0B || n == 0x0C || n == 0x0D || n == 0x20
    || n == 0xA0 || n == 0x1680 || (0x2000 <= n <= 0x200A) || n == 0x2028
    || n == 0x2029 || n == 0x202F || n == 0x205F || n == 0x3000 || n == 0xFEFF
  }

  predicate AllWhitespace(s: string)
  {
    forall i :: 0 <= i < |s| ==> IsWhitespace(s[i])
  }

  /** Neither end of `s` is whitespace. */
  predicate Trimmed(s: string)
  {
    |s| == 0 || (!IsWhitespace(s[0]) && !IsWhitespace(s[|s| - 1]))
  }

  /** `s.trimStart()`: drops the whitespace prefix. */
  function TrimStart(s: string): (t: string)
    ensures |t| <= |s| && t == s[|s| - |t|..]
    ensures AllWhitespace(s[..|s| - |t|])
    ensures |t| == 0 || !IsWhitespace(t[0])
  {
    if |s| > 0 && IsWhitespace(s[0]) then
      var t := TrimStart(s[1..]);
      assert s[..|s| - |t|] == [s[0]] + s[1..][..|s[1..]| - |t|];
      t
    else s
  }

  /** `s.trimEnd()`: drops the whitespace suffix. */
  function TrimEnd(s: string): (t: string)
    ensures |t| <= |s| && t == s[..|t|]
    ensures AllWhitespace(s[|t|..])
    ensures |t| == 0 || !IsWhitespace(t[|t| - 1])
  {
    if |s| > 0 && IsWhitespace(s[|s| - 1]) then
      var t := TrimEnd(s[..|s| - 1]);
      assert s[|t|..] == s[..|s| - 1][|t|..] + [s[|s| - 1]];
      t
    else s
  }

  /** `s.trim()`: the part of `s` between a whitespace prefix and a
      whitespace suffix, with neither end whitespace. */
  function Trim(s: string): (t: string)
    ensures Trimmed(t)
    ensures Margins(s, |TrimEnd(s)| - |t|, |TrimEnd(s)|)
    ensures t == s[|TrimEnd(s)| - |t|..|TrimEnd(s)|]
  {
    var u := TrimEnd(s);
    var t := TrimStart(u);
    assert |t| > 0 ==> t[|t| - 1] == u[|u| - 1];
    assert s[..|u| - |t|] == u[..|u| - |t|];
    t
  }

  /** `s[..i]` and `s[j..]` are whitespace. */
  predicate Margins(s: string, i: int, j: int)
  {
    0 <= i <= j <= |s| && AllWhitespace(s[..i]) && AllWhitespace(s[j..])
  }

  /** A note trims to nothing exactly when it is all whitespace. */
  lemma TrimEmpty(s: string)
    ensures Trim(s) == "" <==> AllWhitespace(s)
  {
    var u := TrimEnd(s);
    var t := Trim(s);
    if t == "" {
      assert |u| == 0;
      forall i | 0 <= i < |s|
        ensures IsWhitespace(s[i])
      {
        assert s[i] == s[|u|..][i];
      }
    } else {
      var k := |u| - |t|;
      assert s[k] == t[0];
    }
  }

  /** Trim gives back exactly the text between whitespace margins. */
  lemma TrimMargins(w1: string, t: string, w2: string)
    requires AllWhitespace(w1) && AllWhitespace(w2) && Trimmed(t) && t != ""
    ensures Trim(w1 + t + w2) == t
  {
    var s := w1 + t + w2;
    TrimEndMargin(w1 + t, w2);
    assert (w1 + t + w2)[..|w1 + t|] == w1 + t;
    TrimStartMargin(w1, t);
  }

  lemma {:induction false} TrimEndMargin(u: string, w: string)
    requires AllWhitespace(w) && |u| > 0 && !IsWhitespace(u[|u| - 1])
    ensures TrimEnd(u + w) == u
    decreases |w|
  {
    if |w| > 0 {
      assert (u + w)[..|u + w| - 1] == u + w[..|w| - 1];
      TrimEndMargin(u, w[..|w| - 1]);
    } else {
      assert u + w == u;
    }
  }

  lemma {:induction false} TrimStartMargin(w: string, t: string)
    requires AllWhitespace(w) && |t| > 0 && !IsWhitespace(t[0])
    ensures TrimStart(w + t) == t
    decreases |w|
  {
    if |w| > 0 {
      assert (w + t)[1..] == w[1..] + t;
      TrimStartMargin(w[1..], t);
    } else {
      assert w + t == t;
    }
  }

  /** Trimming twice is trimming once. */
  lemma TrimIdempotent(s: string)
    ensures Trim(Trim(s)) == Trim(s)
  {
    TrimOfTrimmed(Trim(s));
  }

  /** Text with no white space at either end is left as it is. */
  lemma TrimOfTrimmed(t: string)
    requires Trimmed(t)
    ensures Trim(t) == t
  {
    assert TrimEnd(t) == t;
    assert TrimStart(t) == t;
  }

  /** `Number(s)` on a string, with `None` for `NaN`. Only plain digit strings
      are read as numbers (the empty string is 0, as in JavaScript). */
  function ToNumber(s: string): (r: Option<nat>)
    ensures r.Some? <==> AllDigits(s)
    ensures s == "" ==> r == Some(0)
  {
    if AllDigits(s) then Some(DigitsValue(s)) else None
  }

  /** `parseInt(s, 10)`: the value of the leading digits, `None` (NaN) when
      there are none. */
  function ParseInt(s: string): (r: Option<nat>)
    ensures r.None? <==> (|s| == 0 || !IsDigit(s[0]))
  {
    var p := LeadingDigits(s);
    if p == "" then None else Some(DigitsValue(p))
  }

  /** Where `parseInt` and `Number` both succeed they agree; `parseInt`
      also reads a number off the front of text such as "30am". */
  lemma ParseIntExtendsToNumber(s: string)
    requires s != "" && ToNumber(s).Some?
    ensures ParseInt(s) == ToNumber(s)
  {
    var p := LeadingDigits(s);
    assert |p| == |s|;
    assert p == s;
  }

  /** The property key a value becomes in `obj[v]`: the string itself, or
      "null" for `null`. */
  function PropertyKey(v: Option<string>): (k: string)
    ensures v.Some? ==> k == v.value
  {
    match v
    case Some(s) => s
    case None => "null"
  }

  /** Methods every plain object inherits from `Object.prototype` (section
      20.1.3 of ECMA-262 and its Annex B.2.2): before a key is first
      assigned, `obj[key]` finds one of these functions instead of nothing. */
  const InheritedMethods: set<string> :=
    {"constructor", "hasOwnProperty", "isPrototypeOf", "propertyIsEnumerable",
     "toLocaleString", "toString", "valueOf",
     "__defineGetter__", "__defineSetter__", "__lookupGetter__", "__lookupSetter__"}

  /** The accessor key: reading it gives `Object.prototype` itself, and
      assigning it a non-object value is ignored. */
  const ProtoKey := "__proto__"

  /** Whether `obj[key]` on a fresh plain object finds something inherited. */
  predicate ClashesWithPrototype(key: string)
  {
    key in InheritedMethods || key == ProtoKey
  }
}

=== FILE: money.dfy ===
/** Rounding of hours and money to two decimals. */
module Money {

  /** Whole cents: 100 * r is an integer. */
  predicate IsCents(r: real)
  {
    (r * 100.0).Floor as real == r * 100.0
  }

  /** `Math.round(x * 100) / 100`. JavaScript's `Math.round` rounds halves
      up (towards +infinity), which is floor(y + 1/2). */
  function Round2(x: real): (r: real)
    ensures IsCents(r)
    ensures x - 0.005 < r <= x + 0.005
    ensures x >= 0.0 ==> r >= 0.0
  {
    var k := (x * 100.0 + 0.5).Floor;
    assert (k as real / 100.0) * 100.0 == k as real;
    k as real / 100.0
  }

  /** Rounding an amount that is already whole cents changes nothing, so
      rounding twice is rounding once. */
  lemma Round2Cents(r: real)
    requires IsCents(r)
    ensures Round2(r) == r
  {
    var k := (r * 100.0).Floor;
    assert (r * 100.0 + 0.5).Floor == k;
  }

  /** Rounding is monotone. */
  lemma Round2Monotone(x: real, y: real)
    requires x <= y
    ensures Round2(x) <= Round2(y)
  {
    assert (x * 100.0 + 0.5).Floor <= (y * 100.0 + 0.5).Floor;
  }
}

=== FILE: reports.dfy ===
/** The `report:totals` handler: table counts, hours worked this month and
    the billed amount of all timesheets. */
module Reports {
  import opened Wrappers
  import opened Schema
  import Seqs
  import Text
  import Clock
  import Money
  import Dates
  import Dashboard
  import Handlers

  /** Minutes a selected row adds to the month's total, read with
      `parseInt` on the two parts of each time. A missing time throws inside
      the loop's `try` and a part that does not start with a digit gives NaN;
      either way the row adds nothing, as does a non-positive duration. */
  function ReportMinutes(t: Timesheet): (m: nat)
    ensures (t.startTime.None? || t.endTime.None?) ==> m == 0
    ensures t.startTime.Some? && t.endTime.Some? ==>
              match (Clock.StrictMinutes(t.startTime.value), Clock.StrictMinutes(t.endTime.value))
              case (Some(s), Some(e)) =>
                m >= e - s - BreakOrZero(t) && (m == 0 || m == e - s - BreakOrZero(t))
              case _ => m == 0
  {
    if t.startTime.None? || t.endTime.None? then 0
    else
      match (Clock.StrictMinutes(t.startTime.value), Clock.StrictMinutes(t.endTime.value))
      case (Some(s), Some(e)) =>
        var w := e - s - BreakOrZero(t);
        if w > 0 then w else 0
      case _ => 0
  }

  /** On well-formed "HH:MM" times the report and the dashboard count the
      same minutes for a row. */
  lemma ReportAgreesWithDashboard(t: Timesheet)
    requires t.startTime.Some? && Clock.IsHhMm(t.startTime.value)
    requires t.endTime.Some? && Clock.IsHhMm(t.endTime.value)
    ensures ReportMinutes(t) == Dashboard.RowMinutes(t)
    ensures ReportMinutes(t) > 0 <==>
              Clock.HhMmMinutes(t.endTime.value) - Clock.HhMmMinutes(t.startTime.value) - BreakOrZero(t) > 0
  {
    var st, et := t.startTime.value, t.endTime.value;
    Clock.WellFormedReadingsAgree(st);
    Clock.WellFormedReadingsAgree(et);
    SameReadingsSameMinutes(t, st, et, Clock.HhMmMinutes(st), Clock.HhMmMinutes(et));
  }

  /** When both readings of the start text `st` give `s` and both readings
      of the end text `et` give `e`, the report and the dashboard count the
      same minutes. */
  lemma SameReadingsSameMinutes(t: Timesheet, st: string, et: string, s: nat, e: nat)
    requires t.startTime == Some(st) && t.endTime == Some(et)
    requires Clock.StrictMinutes(st) == Some(s) && Clock.StrictMinutes(et) == Some(e)
    requires Clock.LenientMinutes(Some(st)) == s && Clock.LenientMinutes(Some(et)) == e
    ensures ReportMinutes(t) == Dashboard.RowMinutes(t)
    ensures ReportMinutes(t) > 0 <==> e - s - BreakOrZero(t) > 0
  {
  }

  /** `date >= mISO`, compared as text; a NULL date is never selected. */
  predicate InMonth(t: Timesheet, monthStart: string)
  {
    t.date.Some? && Text.LexLe(monthStart, t.date.value)
  }

  /** With the first of a month as the bound, a row with a well-formed date
      is selected exactly when its date falls in that month or later. */
  lemma SelectsFromFirstOfMonth(t: Timesheet, ym: Dates.YearMonth)
    requires Dates.ValidMonth(ym) && 1000 <= ym.year <= 9999
    requires t.date.Some? && Dates.ParseIsoDate(t.date.value).Some?
    ensures var d := Dates.ParseIsoDate(t.date.value).value;
      (InMonth(t, Dates.DateKey(ym.year, ym.month, 1)) <==>
       Dates.MonthIndex(Dates.MonthOf(d)) >= Dates.MonthIndex(ym))
  {
    var first := Dates.Date(ym.year, ym.month, 1);
    Dates.DateKeyParses(first);
    Dates.IsoOrderIsChronological(Dates.DateKey(ym.year, ym.month, 1), t.date.value);
  }

  /** The measure summed for the month's hours, in minutes: a row outside
      the month, or no row at all, adds nothing. */
  function MonthMinutes(sheets: map<int, Timesheet>, monthStart: string): (f: int -> real)
    ensures forall id :: f(id) >= 0.0
    ensures forall id :: id in sheets && InMonth(sheets[id], monthStart) ==>
              f(id) == ReportMinutes(sheets[id]) as real
    ensures forall id :: !(id in sheets && InMonth(sheets[id], monthStart)) ==> f(id) == 0.0
  {
    id => if id in sheets && InMonth(sheets[id], monthStart)
          then ReportMinutes(sheets[id]) as real else 0.0
  }

  /** The measure summed for the billed amount: SQL `SUM` skips NULLs. */
  function Billed(sheets: map<int, Timesheet>): (f: int -> real)
    ensures forall id :: id in sheets && sheets[id].billableAmount.Some? ==>
              f(id) == sheets[id].billableAmount.value
    ensures forall id :: (id !in sheets || sheets[id].billableAmount.None?) ==>
              f(id) == 0.0
  {
    id => if id in sheets then sheets[id].billableAmount.GetOr(0.0) else 0.0
  }

  datatype Totals = Totals(totalUsers: nat, totalCompanies: nat, totalEntries: nat,
                           totalHoursThisMonth: real, billableAmount: real)

  /** `Math.round((minutes / 60) * 100) / 100`: hours to the cent. */
  function HoursToCents(minutes: real): (h: real)
    requires minutes >= 0.0
    ensures Money.IsCents(h) && h >= 0.0
    ensures minutes / 60.0 - 0.005 < h <= minutes / 60.0 + 0.005
  {
    Money.Round2(minutes / 60.0)
  }

  /** The minutes worked this month: the selected rows' contributions. */
  function MinutesThisMonth(sheets: map<int, Timesheet>, order: seq<int>, monthStart: string): (m: real)
    requires Seqs.Enumerates(order, sheets)
    ensures m >= 0.0
  {
    var perRow := MonthMinutes(sheets, monthStart);
    assert forall i :: 0 <= i < |order| ==> perRow(order[i]) >= 0.0;
    Seqs.SumNonNegative(order, perRow);
    Seqs.Sum(order, perRow)
  }

  /** `SUM(billable_amount) || 0` over the whole table: the stored amounts
      added up, NULL counting as nothing (an empty table gives 0). */
  function BilledTotal(sheets: map<int, Timesheet>, order: seq<int>): (a: real)
    requires Seqs.Enumerates(order, sheets)
    ensures a == Seqs.Sum(order, Billed(sheets))
    ensures |sheets| == 0 ==> a == 0.0
    ensures (forall id :: id in sheets && sheets[id].billableAmount.Some?
               ==> sheets[id].billableAmount.value >= 0.0) ==> a >= 0.0
  {
    var billed := Billed(sheets);
    Seqs.EnumerationSize(order, sheets);
    if forall id :: id in sheets && sheets[id].billableAmount.Some?
               ==> sheets[id].billableAmount.value >= 0.0 then
      assert forall i :: 0 <= i < |order| ==> billed(order[i]) >= 0.0;
      Seqs.SumNonNegative(order, billed);
      Seqs.Sum(order, billed)
    else
      Seqs.Sum(order, billed)
  }

  /** `report:totals`, the table enumerated in `order` (SELECT order is
      unspecified) and `monthStart` standing for the `mISO` string. */
  function ReportTotals(db: Db, order: seq<int>, monthStart: string): (r: Totals)
    requires Seqs.Enumerates(order, db.timesheets)
    ensures r.totalUsers == |db.users| && r.totalCompanies == |db.companies|
    ensures r.totalEntries == |db.timesheets| == |order|
    ensures Money.IsCents(r.totalHoursThisMonth) && r.totalHoursThisMonth >= 0.0
    ensures var hours := Seqs.Sum(order, MonthMinutes(db.timesheets, monthStart)) / 60.0;
      hours - 0.005 < r.totalHoursThisMonth <= hours + 0.005
    ensures r.billableAmount == Seqs.Sum(order, Billed(db.timesheets))
    ensures |db.timesheets| == 0 ==> r.billableAmount == 0.0
    ensures (forall id :: id in db.timesheets && db.timesheets[id].billableAmount.Some?
               ==> db.timesheets[id].billableAmount.value >= 0.0) ==> r.billableAmount >= 0.0
  {
    Seqs.EnumerationSize(order, db.timesheets);
    Totals(|db.users|, |db.companies|, |db.timesheets|,
           HoursToCents(MinutesThisMonth(db.timesheets, order, monthStart)), BilledTotal(db.timesheets, order))
  }

  /** The totals do not depend on the order rows are read in. */
  lemma TotalsIndependentOfOrder(db: Db, o1: seq<int>, o2: seq<int>, monthStart: string)
    requires Seqs.Enumerates(o1, db.timesheets) && Seqs.Enumerates(o2, db.timesheets)
    ensures ReportTotals(db, o1, monthStart) == ReportTotals(db, o2, monthStart)
  {
    Seqs.SumOverEnumerations(o1, o2, db.timesheets, MonthMinutes(db.timesheets, monthStart));
    Seqs.SumOverEnumerations(o1, o2, db.timesheets, Billed(db.timesheets));
  }

  /** Inserting a row under a new id adds its amount to the billed total. */
  lemma BilledAfterInsert(sheets: map<int, Timesheet>, order: seq<int>, id: int, t: Timesheet)
    requires Seqs.Enumerates(order, sheets) && id !in sheets
    ensures Seqs.Enumerates(order + [id], sheets[id := t])
    ensures BilledTotal(sheets[id := t], order + [id]) == BilledTotal(sheets, order) + t.billableAmount.GetOr(0.0)
  {
    Seqs.EnumerationExtends(order, sheets, id, t);
    var billed, billed' := Billed(sheets), Billed(sheets[id := t]);
    assert forall i :: 0 <= i < |order| ==> billed'(order[i]) == billed(order[i]);
    Seqs.SumCongruent(order, billed', billed);
    Seqs.SumAppend(order, [id], billed');
    assert Seqs.Sum([id], billed') == billed'(id) by {
      assert [id][..0] == [];
    }
  }

  /** Adding a timesheet adds one entry and its amount (nothing for NULL)
      to the billed total; the user and company counts stay the same. */
  lemma AddTimesheetTotals(db: Db, e: Entry, order: seq<int>, monthStart: string)
    requires Valid(db) && Seqs.Enumerates(order, db.timesheets)
    ensures var (db', id) := Handlers.AddTimesheet(db, e);
      && Seqs.Enumerates(order + [id], db'.timesheets)
      && var before := ReportTotals(db, order, monthStart);
         var after := ReportTotals(db', order + [id], monthStart);
         && after.totalEntries == before.totalEntries + 1
         && after.totalUsers == before.totalUsers
         && after.totalCompanies == before.totalCompanies
         && after.billableAmount == before.billableAmount + e.billableAmount.GetOr(0.0)
  {
    var (db', id) := Handlers.AddTimesheet(db, e);
    var t := Handlers.NewTimesheet(e);
    assert db'.timesheets == db.timesheets[id := t];
    BilledAfterInsert(db.timesheets, order, id, t);
  }
}

=== FILE: schema.dfy ===
/** The four tables of the application's SQLite database, held as maps from
    row id to record, and the shapes that cross the renderer/main bridge. */
module Schema {
  import opened Wrappers
  import Js

  /** A `users` row. `active` is stored as 1 or 0; the password is a bcrypt hash. */
  datatype User = User(username: string, passwordHash: string, role: string,
                       companyId: Js.Value, active: int)

  datatype Company = Company(name: string)

  /** A `timesheets` row. Columns that may be NULL and that readers handle
      defensively are options. */
  datatype Timesheet = Timesheet(
    userId: Option<int>,
    date: Option<string>,
    task: string,
    startTime: Option<string>,
    endTime: Option<string>,
    breakMinutes: Option<int>,
    billable: Option<int>,
    ratePerHour: real,
    billableAmount: Option<real>,
    companyId: Js.Value,
    status: string)

  /** A `comments` row. */
  datatype Comment = Comment(timesheetId: int, userId: int, commenterRole: string,
                             text: string, createdAt: string)

  /** The database. `lastTimesheetId`/`lastCommentId` are the AUTOINCREMENT
      counters: the largest id each table has ever handed out. */
  datatype Db = Db(
    users: map<int, User>,
    companies: map<int, Company>,
    timesheets: map<int, Timesheet>,
    comments: map<int, Comment>,
    lastTimesheetId: int,
    lastCommentId: int)

  /** No two users share a name (the UNIQUE constraint on `users.username`). */
  predicate UniqueUsernames(users: map<int, User>)
  {
    forall a, b :: a in users && b in users && users[a].username == users[b].username ==> a == b
  }

  /** What the database guarantees: unique user names, and no timesheet or
      comment id above its table's counter. */
  predicate Valid(db: Db)
  {
    && UniqueUsernames(db.users)
    && (forall id :: id in db.timesheets ==> id <= db.lastTimesheetId)
    && (forall id :: id in db.comments ==> id <= db.lastCommentId)
  }

  /** A `timesheet:getAll` row: a timesheet with its id and its user's name
      (NULL when no user matches the LEFT JOIN). */
  datatype Row = Row(id: int, username: Option<string>, sheet: Timesheet)

  /** The object the renderer passes to `timesheet:add` and `timesheet:update`. */
  datatype Entry = Entry(
    id: int,
    userId: Option<int>,
    date: Option<string>,
    task: string,
    startTime: Option<string>,
    endTime: Option<string>,
    breakMinutes: Option<int>,
    billable: Option<int>,
    ratePerHour: real,
    billableAmount: Option<real>,
    companyId: Js.Value,
    status: Option<string>)

  /** The `{ success, message }` reply of a handler. */
  datatype Response = Ok | Failed(message: string)

  /** `Number(r.break_minutes) || 0`: a NULL break counts as no break. */
  function BreakOrZero(t: Timesheet): (b: int)
    ensures t.breakMinutes.Some? ==> b == t.breakMinutes.value
    ensures t.breakMinutes.None? ==> b == 0
  {
    t.breakMinutes.GetOr(0)
  }
}

=== FILE: seqs.dfy ===
/** Generic facts about sequences: sums of a real-valued measure and the
    duplicate-free, first-occurrence view of a sequence. */
module Seqs {

  /** Left-to-right sum of `f` over `xs`, the shape of a `forEach` accumulator. */
  function Sum<T>(xs: seq<T>, f: T -> real): real
  {
    if |xs| == 0 then 0.0 else Sum(xs[..|xs| - 1], f) + f(xs[|xs| - 1])
  }

  lemma {:induction false} SumAppend<T>(xs: seq<T>, ys: seq<T>, f: T -> real)
    ensures Sum(xs + ys, f) == Sum(xs, f) + Sum(ys, f)
    decreases |ys|
  {
    if |ys| == 0 {
      assert xs + ys == xs;
    } else {
      var ys' := ys[..|ys| - 1];
      assert (xs + ys)[..|xs + ys| - 1] == xs + ys';
      SumAppend(xs, ys', f);
    }
  }

  /** Sums of two measures that agree on every element are equal. */
  lemma {:induction false} SumCongruent<T>(xs: seq<T>, f: T -> real, g: T -> real)
    requires forall i :: 0 <= i < |xs| ==> f(xs[i]) == g(xs[i])
    ensures Sum(xs, f) == Sum(xs, g)
    decreases |xs|
  {
    if |xs| > 0 {
      var xs' := xs[..|xs| - 1];
      assert forall i :: 0 <= i < |xs'| ==> xs'[i] == xs[i];
      SumCongruent(xs', f, g);
    }
  }

  /** Taking one element out of the middle of a sum. */
  lemma {:induction false} SumRemoveAt<T>(xs: seq<T>, k: nat, f: T -> real)
    requires k < |xs|
    ensures Sum(xs, f) == Sum(xs[..k] + xs[k + 1..], f) + f(xs[k])
  {
    var pre, mid, post := xs[..k], [xs[k]], xs[k + 1..];
    assert xs == (pre + mid) + post;
    SumAppend(pre + mid, post, f);
    SumAppend(pre, mid, f);
    SumAppend(pre, post, f);
    assert Sum(mid, f) == f(xs[k]) by {
      assert mid[..0] == [];
    }
  }

  predicate NoDuplicates<T(==)>(xs: seq<T>)
  {
    forall i, j :: 0 <= i < j < |xs| ==> xs[i] != xs[j]
  }

  /** Two duplicate-free enumerations of the same set have the same sum: the
      order in which a query returns its rows does not change a total. */
  lemma {:induction false} SumReorder<T>(xs: seq<T>, ys: seq<T>, f: T -> real)
    requires NoDuplicates(xs) && NoDuplicates(ys)
    requires forall x :: x in xs <==> x in ys
    ensures Sum(xs, f) == Sum(ys, f)
    decreases |xs|
  {
    if |xs| == 0 {
      if |ys| > 0 {
        HeadIsMember(ys);
        assert false;
      }
    } else {
      var x := xs[|xs| - 1];
      var xs' := xs[..|xs| - 1];
      assert x in ys;
      var k :| 0 <= k < |ys| && ys[k] == x;
      var ys' := ys[..k] + ys[k + 1..];
      forall y
        ensures y in xs' <==> y in ys'
      {
        if y in xs' {
          var i :| 0 <= i < |xs'| && xs'[i] == y;
          assert xs[i] == y && i < |xs| - 1;
          assert y != x;
          assert y in xs;
          var j :| 0 <= j < |ys| && ys[j] == y;
          assert j != k;
          if j < k { assert ys'[j] == y; } else { assert ys'[j - 1] == y; }
        }
        if y in ys' {
          var j :| 0 <= j < |ys'| && ys'[j] == y;
          var j0 := if j < k then j else j + 1;
          assert ys[j0] == y && j0 != k;
          assert y != x;
          assert y in ys;
          assert y in xs;
          var i :| 0 <= i < |xs| && xs[i] == y;
          assert i != |xs| - 1;
          assert xs'[i] == y;
        }
      }
      assert NoDuplicates(ys') by {
        forall i, j | 0 <= i < j < |ys'|
          ensures ys'[i] != ys'[j]
        {
          var i0 := if i < k then i else i + 1;
          var j0 := if j < k then j else j + 1;
          assert ys'[i] == ys[i0] && ys'[j] == ys[j0] && i0 < j0;
        }
      }
      SumReorder(xs', ys', f);
      SumRemoveAt(ys, k, f);
    }
  }

  /** `order` lists every key of `m` exactly once: an enumeration of a table. */
  ghost predicate Enumerates<K(!new), V>(order: seq<K>, m: map<K, V>)
  {
    NoDuplicates(order) && forall k :: k in order <==> k in m
  }

  /** Two enumerations of one table give the same sum. */
  lemma SumOverEnumerations<K(!new), V>(o1: seq<K>, o2: seq<K>, m: map<K, V>, f: K -> real)
    requires Enumerates(o1, m) && Enumerates(o2, m)
    ensures Sum(o1, f) == Sum(o2, f)
  {
    SumReorder(o1, o2, f);
  }

  /** A new key appended to an enumeration enumerates the extended table. */
  lemma EnumerationExtends<K(!new), V>(order: seq<K>, m: map<K, V>, k: K, v: V)
    requires Enumerates(order, m) && k !in m
    ensures Enumerates(order + [k], m[k := v])
  {
    var order' := order + [k];
    assert NoDuplicates(order') by {
      forall i, j | 0 <= i < j < |order'|
        ensures order'[i] != order'[j]
      {
        if j == |order| {
          assert order'[i] in order;
        } else {
          assert order'[i] == order[i] && order'[j] == order[j];
        }
      }
    }
    forall x
      ensures x in order' <==> x in m[k := v]
    {
      assert x in order' <==> x in order || x == k;
    }
  }

  /** An enumeration has one entry per key. */
  lemma {:induction false} EnumerationSize<K(!new), V>(order: seq<K>, m: map<K, V>)
    requires Enumerates(order, m)
    ensures |order| == |m|
    decreases |order|
  {
    if |order| > 0 {
      var last := order[|order| - 1];
      var order' := order[..|order| - 1];
      var rest := m - {last};
      assert NoDuplicates(order') by {
        forall i, j | 0 <= i < j < |order'|
          ensures order'[i] != order'[j]
        {
          assert order'[i] == order[i] && order'[j] == order[j];
        }
      }
      forall k
        ensures k in order' <==> k in rest
      {
        if k in order' {
          var i :| 0 <= i < |order'| && order'[i] == k;
          assert order[i] == k && i < |order| - 1;
        }
        if k in rest {
          assert k in order;
          var i :| 0 <= i < |order| && order[i] == k;
          assert i != |order| - 1;
          assert order'[i] == k;
        }
      }
      EnumerationSize(order', rest);
      assert last in m;
    } else {
      assert m.Keys == {};
    }
  }

  /** Names the first element of a non-empty sequence as a member; called
      where membership has to be exhibited in an impossible branch, in which
      no indexing may be checked. */
  lemma HeadIsMember<T>(ys: seq<T>)
    requires |ys| > 0
    ensures ys[0] in ys
  {
  }

  lemma {:induction false} SumNonNegative<T>(xs: seq<T>, f: T -> real)
    requires forall i :: 0 <= i < |xs| ==> f(xs[i]) >= 0.0
    ensures Sum(xs, f) >= 0.0
    decreases |xs|
  {
    if |xs| > 0 {
      SumNonNegative(xs[..|xs| - 1], f);
    }
  }

  /** The distinct elements of `xs` in order of first occurrence, as
      `[...new Set(xs)]` produces them in JavaScript. */
  function Distinct<T(==)>(xs: seq<T>): (d: seq<T>)
    ensures NoDuplicates(d)
    ensures forall i :: 0 <= i < |xs| ==> xs[i] in d
    ensures forall i :: 0 <= i < |d| ==> d[i] in xs
  {
    if |xs| == 0 then []
    else
      var prefix := Distinct(xs[..|xs| - 1]);
      var x := xs[|xs| - 1];
      assert forall i :: 0 <= i < |xs| - 1 ==> xs[i] == xs[..|xs| - 1][i];
      if x in prefix then prefix else prefix + [x]
  }

  /** Index of the first occurrence of `x` in `xs`. */
  function FirstIndex<T(==)>(xs: seq<T>, x: T): (i: nat)
    requires x in xs
    ensures i < |xs| && xs[i] == x
    ensures x !in xs[..i]
  {
    if xs[0] == x then 0 else 1 + FirstIndex(xs[1..], x)
  }

  /** `Distinct` keeps first-occurrence order: an element listed earlier was
      met earlier in the input. */
  lemma {:induction false} DistinctFirstOccurrenceOrder<T>(xs: seq<T>, i: nat, j: nat)
    requires i < j < |Distinct(xs)|
    ensures FirstIndex(xs, Distinct(xs)[i]) < FirstIndex(xs, Distinct(xs)[j])
    decreases |xs|
  {
    var d := Distinct(xs);
    var xs' := xs[..|xs| - 1];
    var d' := Distinct(xs');
    var x := xs[|xs| - 1];
    assert xs == xs' + [x];
    if j < |d'| {
      assert d[i] == d'[i] && d[j] == d'[j];
      FirstIndexPrefix(xs', x, d[i]);
      FirstIndexPrefix(xs', x, d[j]);
      DistinctFirstOccurrenceOrder(xs', i, j);
    } else {
      assert x !in d' && d == d' + [x];
      assert d[i] == d'[i] && d[i] in xs';
      FirstIndexPrefix(xs', x, d[i]);
      FirstIndexLast(xs', x);
    }
  }

  lemma FirstIndexBound<T>(xs: seq<T>, x: T, k: nat)
    requires k < |xs| && xs[k] == x
    ensures FirstIndex(xs, x) <= k
  {
  }

  /** An element met only at the end has its first occurrence there. */
  lemma FirstIndexLast<T>(xs': seq<T>, x: T)
    requires x !in xs'
    ensures FirstIndex(xs' + [x], x) == |xs'|
  {
  }

  /** First occurrences in a prefix are first occurrences in the whole. */
  lemma FirstIndexPrefix<T>(xs': seq<T>, x: T, y: T)
    requires y in xs'
    ensures FirstIndex(xs' + [x], y) == FirstIndex(xs', y)
  {
    var xs := xs' + [x];
    var k := FirstIndex(xs', y);
    assert xs[k] == y;
    FirstIndexBound(xs, y, k);
  }
}

=== FILE: text.dfy ===
/** Character-level string utilities the rest of the model is built on:
    decimal digits, `split`, and the code-point order in which SQLite
    compares text. */
module Text {

  predicate IsDigit(c: char) { '0' <= c <= '9' }

  predicate AllDigits(s: string)
  {
    forall i :: 0 <= i < |s| ==> IsDigit(s[i])
  }

  function DigitValue(c: char): nat
    requires IsDigit(c)
  {
    c as int - '0' as int
  }

  function DigitChar(d: nat): (c: char)
    requires d < 10
    ensures IsDigit(c) && DigitValue(c) == d
  {
    ('0' as int + d) as char
  }

  function Pow10(k: nat): nat
  {
    if k == 0 then 1 else 10 * Pow10(k - 1)
  }

  /** The value of a string of decimal digits; the empty string reads as 0. */
  function DigitsValue(s: string): nat
    requires AllDigits(s)
  {
    if |s| == 0 then 0 else 10 * DigitsValue(s[..|s| - 1]) + DigitValue(s[|s| - 1])
  }

  /** `String(n)` for a non-negative integer: its digits, without leading zeros. */
  function ShowNat(n: nat): (s: string)
    ensures 1 <= |s| && AllDigits(s)
    ensures |s| > 1 ==> s[0] != '0'
  {
    if n < 10 then [DigitChar(n)] else ShowNat(n / 10) + [DigitChar(n % 10)]
  }

  lemma {:induction false} ShowNatRoundTrip(n: nat)
    ensures DigitsValue(ShowNat(n)) == n
  {
    if n >= 10 {
      ShowNatRoundTrip(n / 10);
      assert ShowNat(n)[..|ShowNat(n)| - 1] == ShowNat(n / 10);
    }
  }

  /** The number of digits `String(n)` has, for the widths calendar keys use. */
  lemma ShowNatLength(n: nat)
    ensures n < 10 ==> |ShowNat(n)| == 1
    ensures 10 <= n < 100 ==> |ShowNat(n)| == 2
    ensures 100 <= n < 1000 ==> |ShowNat(n)| == 3
    ensures 1000 <= n < 10000 ==> |ShowNat(n)| == 4
  {
  }

  /** `String(i)` for any integer (a leading `-` for negatives). */
  function ShowInt(i: int): string
  {
    if i < 0 then "-" + ShowNat(-i) else ShowNat(i)
  }

  /** `String(i)` starts with a minus sign exactly when `i` is negative. */
  lemma ShowIntSign(i: int)
    ensures |ShowInt(i)| >= 1 && (ShowInt(i)[0] == '-' <==> i < 0)
  {
    if i >= 0 {
      assert IsDigit(ShowNat(i)[0]);
    }
  }

  /** Different integers print differently. */
  lemma ShowIntInjective(a: int, b: int)
    requires ShowInt(a) == ShowInt(b)
    ensures a == b
  {
    ShowIntSign(a);
    ShowIntSign(b);
    if a < 0 && b < 0 {
      var sa, sb := ShowNat(-a), ShowNat(-b);
      assert ShowInt(a) == "-" + sa && ShowInt(b) == "-" + sb;
      assert sa == ShowInt(a)[1..] && sb == ShowInt(b)[1..];
      ShowNatInjective(-a, -b);
    } else if a >= 0 && b >= 0 {
      ShowNatInjective(a, b);
    }
  }

  lemma ShowNatInjective(x: nat, y: nat)
    requires ShowNat(x) == ShowNat(y)
    ensures x == y
  {
    ShowNatRoundTrip(x);
    ShowNatRoundTrip(y);
  }

  /** `String(n).padStart(2, '0')`. */
  function Pad2(n: nat): (s: string)
    ensures n < 100 ==> |s| == 2 && AllDigits(s) && DigitsValue(s) == n
  {
    ShowNatRoundTrip(n);
    ShowNatLength(n);
    var t := ShowNat(n);
    if |t| < 2 then "0" + t else t
  }

  /** The longest prefix of `s` made of decimal digits. */
  function LeadingDigits(s: string): (p: string)
    ensures AllDigits(p) && p <= s
    ensures |p| < |s| ==> !IsDigit(s[|p|])
  {
    if |s| > 0 && IsDigit(s[0]) then [s[0]] + LeadingDigits(s[1..]) else ""
  }

  /** Index of the first `c` in `s`. */
  function IndexOf(s: string, c: char): (i: nat)
    requires c in s
    ensures i < |s| && s[i] == c && c !in s[..i]
  {
    if s[0] == c then 0 else 1 + IndexOf(s[1..], c)
  }

  /** `parts.join(sep)`. */
  function Join(parts: seq<string>, sep: char): string
    requires |parts| >= 1
  {
    if |parts| == 1 then parts[0] else parts[0] + [sep] + Join(parts[1..], sep)
  }

  /** `s.split(sep)` for a one-character separator: never empty, no part
      contains the separator, and joining the parts gives `s` back. */
  function Split(s: string, sep: char): (parts: seq<string>)
    ensures |parts| >= 1
    ensures forall i :: 0 <= i < |parts| ==> sep !in parts[i]
    ensures Join(parts, sep) == s
    decreases |s|
  {
    if sep !in s then [s]
    else
      var i := IndexOf(s, sep);
      var rest := Split(s[i + 1..], sep);
      assert ([s[..i]] + rest)[1..] == rest;
      assert s == s[..i] + [sep] + s[i + 1..];
      [s[..i]] + rest
  }

  /** The first separator in `a + [sep] + b` is the one after `a` when `a`
      has none. */
  lemma {:induction false} IndexOfAfterPrefix(a: string, sep: char, b: string)
    requires sep !in a
    ensures sep in a + [sep] + b
    ensures IndexOf(a + [sep] + b, sep) == |a|
    decreases |a|
  {
    var s := a + [sep] + b;
    assert s[|a|] == sep;
    if |a| > 0 {
      assert s[0] == a[0] && s[1..] == a[1..] + [sep] + b;
      IndexOfAfterPrefix(a[1..], sep, b);
    }
  }

  /** Splitting undoes joining parts that do not contain the separator. */
  lemma {:induction false} SplitJoin(parts: seq<string>, sep: char)
    requires |parts| >= 1
    requires forall i :: 0 <= i < |parts| ==> sep !in parts[i]
    ensures Split(Join(parts, sep), sep) == parts
    decreases |parts|
  {
    var s := Join(parts, sep);
    if |parts| == 1 {
      assert s == parts[0];
    } else {
      var head, tail := parts[0], Join(parts[1..], sep);
      assert s == head + [sep] + tail;
      IndexOfAfterPrefix(head, sep, tail);
      assert s[..|head|] == head && s[|head| + 1..] == tail;
      SplitJoin(parts[1..], sep);
      assert Split(s, sep) == [head] + Split(tail, sep);
      assert [head] + parts[1..] == parts;
    }
  }

  /** `a <= b` on strings: code-point order, a proper prefix first, which is
      the order of SQLite's default collation on UTF-8 text. */
  predicate LexLe(a: string, b: string)
  {
    if |a| == 0 then true
    else if |b| == 0 then false
    else if a[0] != b[0] then a[0] < b[0]
    else LexLe(a[1..], b[1..])
  }

  lemma {:induction false} DigitsValueFront(s: string)
    requires |s| >= 1 && AllDigits(s)
    ensures DigitsValue(s) == DigitValue(s[0]) * Pow10(|s| - 1) + DigitsValue(s[1..])
    decreases |s|
  {
    var last := DigitValue(s[|s| - 1]);
    var init := s[..|s| - 1];
    var head := DigitValue(s[0]);
    if |s| == 1 {
      assert init == [] && s[1..] == [];
    } else {
      DigitsValueFront(init);
      var mid := init[1..];
      assert mid == s[1..][..|s[1..]| - 1];
      assert s[1..][|s[1..]| - 1] == s[|s| - 1];
      assert init[0] == s[0];
      assert DigitsValue(s) == 10 * DigitsValue(init) + last;
      assert DigitsValue(s[1..]) == 10 * DigitsValue(mid) + last;
      assert DigitsValue(init) == head * Pow10(|s| - 2) + DigitsValue(mid);
      var p := Pow10(|s| - 2);
      assert Pow10(|s| - 1) == 10 * p;
      ShiftDigit(head, p);
    }
  }

  /** A leading digit worth `h * p` is worth ten times that one place higher. */
  lemma ShiftDigit(h: nat, p: nat)
    ensures 10 * (h * p) == h * (10 * p)
  {
  }

  lemma {:induction false} DigitsValueBound(s: string)
    requires AllDigits(s)
    ensures DigitsValue(s) < Pow10(|s|)
    decreases |s|
  {
    if |s| > 0 {
      DigitsValueBound(s[..|s| - 1]);
    }
  }

  /** A smaller leading digit makes a smaller number, whatever follows. */
  lemma HeadDecides(x: nat, y: nat, r1: nat, r2: nat, p: nat)
    requires x < y && r1 < p
    ensures x * p + r1 < y * p + r2
  {
    var d := y - x;
    assert y * p == x * p + d * p;
    assert d * p >= p by {
      assert d * p == (d - 1) * p + p;
    }
  }

  /** On digit strings of one width, string order is numeric order. */
  lemma {:induction false} LexLeDigits(a: string, b: string)
    requires |a| == |b| && AllDigits(a) && AllDigits(b)
    ensures LexLe(a, b) <==> DigitsValue(a) <= DigitsValue(b)
    decreases |a|
  {
    if |a| > 0 {
      DigitsValueFront(a);
      DigitsValueFront(b);
      DigitsValueBound(a[1..]);
      DigitsValueBound(b[1..]);
      var p := Pow10(|a| - 1);
      if a[0] == b[0] {
        LexLeDigits(a[1..], b[1..]);
      } else if a[0] < b[0] {
        HeadDecides(DigitValue(a[0]), DigitValue(b[0]), DigitsValue(a[1..]), DigitsValue(b[1..]), p);
      } else {
        HeadDecides(DigitValue(b[0]), DigitValue(a[0]), DigitsValue(b[1..]), DigitsValue(a[1..]), p);
      }
    }
  }

  /** Comparing two strings that start with same-width heads: the heads decide
      unless they are equal. */
  lemma {:induction false} LexLeConcat(p: string, s: string, q: string, t: string)
    requires |p| == |q|
    ensures LexLe(p + s, q + t) <==> (if p == q then LexLe(s, t) else LexLe(p, q))
    decreases |p|
  {
    if |p| > 0 {
      assert (p + s)[0] == p[0] && (q + t)[0] == q[0];
      assert (p + s)[1..] == p[1..] + s && (q + t)[1..] == q[1..] + t;
      LexLeConcat(p[1..], s, q[1..], t);
      if p[0] == q[0] {
        assert p == q <==> p[1..] == q[1..] by {
          if p[1..] == q[1..] {
            assert p == [p[0]] + p[1..] && q == [q[0]] + q[1..];
          }
        }
      }
    } else {
      assert p + s == s && q + t == t;
    }
  }
}

=== FILE: wrappers.dfy ===
/** Optional values: the model's stand-in for JavaScript's `null`/`undefined`
    and for SQL NULL. */
module Wrappers {

  datatype Option<+T> = None | Some(value: T) {

    /** The wrapped value, or `default` when there is none (JavaScript's `x ?? d`). */
    function GetOr(default: T): T {
      match this
      case Some(v) => v
      case None => default
    }
  }
}
